=== FILE: README.md ===
# libestr in Dafny

libestr is a small C library of growable strings. This project models its
three parts:

- **`estr_t`** (lib/estr.c): a tagged object. It holds a heap region
  `buffer` of `capacity` characters with a C string in it. It also keeps a
  `length` counter, and in this file the counter includes the terminator.
  Every operation but `estr_erase` first checks two magic tags (`sm`, `em`).
  A failed check sets `errno` to `EINVAL`.
- **`estrbuffer_t`** (lib/estrbuffer.c): a simpler buffer. It holds a
  region `str` of `alength` characters and a `length` counter that
  excludes the terminator.
- **`estrtoken_t`** (lib/estrtoken.c): a cursor over a borrowed C string.
  Each call hands out the next maximal non-empty run of characters that
  are not separators.

Both buffers format text with a small printf clone. It supports `%%`,
`%c`, `%d`/`%i`, `%u`, `%o`, `%x`/`%p`, `%X` and `%s`, a `#` flag that
emits `0x`, and a one-digit "width" that behaves unusually: `%Dc`, for a
digit D from 0 to 8, emits D as many as D+1 times and then skips the
character after it. Both also use helpers from lib/estr.c: radix
conversion (`estr_convert`), hex-to-binary, and case mapping.

## Layout

| file | module | contents |
|---|---|---|
| cstrings.dfy | `CStrings` | C strings in a region (`NulIndex` is strlen, `CStr` the string before the NUL); strcat, bzero, memmove and realloc as small methods on arrays |
| text.dfy | `Text` | the stateless helpers of lib/estr.c (radix conversion, hex-to-binary, ASCII case mapping, strstr, counting, prefix/suffix tests, the integer test), each with an independent characterisation |
| format.dfy | `Format` | the printf clone as a pure function `Render(fmt, args)` with a `Result`: the error cases are the inputs on which the C code has undefined behaviour; a `char` argument is promoted to an int, as a variadic call does, so %c and the integer conversions accept both |
| estr.dfy | `EStrBuf` | class `EStr`: the `estr_t` object and its operations |
| estrbuffer.dfy | `EStrBuffer` | class `Buffer`: the `estrbuffer_t` object and its operations |
| estrtoken.dfy | `EStrToken` | class `Cursor`: the tokenizer; `Next`/`Tokens` specify it and `Fields` (split at every separator) is the reference it is proved against |

### Conventions

- **Objects are classes.** The C structs become Dafny classes. Their
  regions are `array<char>`, and the operations are methods that update
  fields and arrays in place. Each method states its new state in terms of
  `Content()` / `ToStr()`, the C string in the region, plus the fields it
  sets.
- **Allocation failure.** Whether `malloc`/`realloc` fails is a `bool`
  parameter of the method, such as `allocFails`. Both outcomes are
  specified.
- **`errno`.** It is an extra result of type `Errno`: `Kept` (not written),
  `Zero`, `EINVAL` or `ENOMEM`.
- **NULL.** A `char*` that may be NULL is an `Option<string>`.
- **Integers.** `size_t` is unbounded (`nat`), and `(size_t) -1` is
  `SIZE_MAX`. The `int` arguments of the formatter are 32-bit (`i32`).
  Their reading as `unsigned int` or as a sign-extended `unsigned long` is
  spelled out as arithmetic modulo 2^32 or 2^64.

## Model

| member | source | states |
|---|---|---|
| CStrings.NulIndex | lib/estrtoken.c:65 | strlen: the first NUL; nothing before it is a NUL; the length of the region when there is none |
| CStrings.StrCat | lib/estr.c:290-304 | strcpy/strcat at the old strlen: the C string becomes the kept characters followed by the new ones, its length is their sum, and the rest of the region is untouched |
| CStrings.ZeroFill | lib/estr.c:376 | bzero clears exactly the `n` characters at `k` and nothing else |
| CStrings.MoveDown | lib/estr.c:395 | the overlapping copy of erase, done as memmove: the `n` characters from `src` land at `dst`, the rest of the region is unchanged |
| CStrings.EraseRun | lib/estr.c:395-396 | shift the tail down over `n` characters and zero the vacated end: the region is the prefix, the tail and `n` NULs; when the erased run lies inside the string, the string loses exactly that run; the terminator moves down by at least `n` |
| CStrings.Realloc | lib/estr.c:214 | realloc keeps the first min(old, new) characters |
| Text.ToLowerChar | lib/estr.c:540-541 | tolower in the C locale: exactly 'A'..'Z' move, by 32, and no upper-case letter is left |
| Text.ToUpperChar | lib/estr.c:552-553 | toupper in the C locale: exactly 'a'..'z' move, by 32, and no lower-case letter is left |
| Text.ToUpperStr | lib/estrbuffer.c:403 | the raw `estr_toupper(source, dest)` helper: same length, each character upper-cased |
| Text.ToLowerStr | lib/estr.c:535-543 | same length, each character lower-cased |
| Text.CaseMapKeepsCStr | lib/estr.c:539-553 | case mapping keeps every NUL in place, so mapping a region maps its C string |
| Text.ToUpperIdempotent | lib/estr.c:548-554 | upper-casing twice is upper-casing once; no lower-case letter survives |
| Text.DigitCharTable | lib/estr.c:775 | the digit of value k is entry k of "0123456789abcdef", and it reads back as k |
| Text.Convert | lib/estr.c:769-779 | estr_convert produces at least one digit |
| Text.ConvertStep | lib/estr.c:775-776 | one turn of the do-while: the last digit is num % base and the rest is the rendering of num / base |
| Text.ConvertDigits | lib/estr.c:775 | every digit is one of the first `base` entries of the table |
| Text.ConvertNoNul | lib/estr.c:772-778 | the rendering holds no terminator |
| Text.ConvertValue | lib/estr.c:769-779 | reading the digits back in the same base gives the number (round trip) |
| Text.ConvertNoLeadingZero | lib/estr.c:774-777 | the first digit is '0' exactly for 0, which renders as "0" |
| Text.ConvertLength | lib/estr.c:774-777 | a number below base^k has at most k digits |
| Text.ConvertPush | lib/estr.c:775-776 | a digit pushed in front of the rendering of what is left of the number extends it to the rendering of the number |
| Text.ConvertInto | lib/estr.c:769-779 | the do-while over the 33-character array: from `ptr` on, the array holds exactly the rendering followed by its terminator |
| Text.ConvertFitsScratch | lib/estr.c:770 | any 64-bit number in base 4 or more fits the 32 digits of the static array |
| Text.Quad | lib/estr.c:791-793 | the quad table entry of a nibble is four binary digits of that value |
| Text.Hex2Bin | lib/estr.c:787-804 | four binary digits per hex digit (after an optional "0x"), fitting the 132-byte result, whose binary value is the hex value; NULL gives "" |
| Text.ExpandQuadsValue | lib/estr.c:798-802 | the loop of quads keeps the value: binary value of the expansion = hex value of the digits |
| Text.Hex2BinInto | lib/estr.c:787-804 | the loop over the zeroed 132-character array leaves exactly Hex2Bin followed by zeros, which reads back as Hex2Bin |
| Text.ExpandInto | lib/estr.c:798-802 | after the loop the array holds the quads of all the digits, then zeros |
| Text.WriteQuad | lib/estr.c:799-800 | one strcpy of a quad: the expansion grows by that digit's quad and the rest stays zero |
| Text.ExpandStep | lib/estr.c:799-800 | copying a quad and its NUL over the zeros past the expansion extends the expansion by one digit |
| Text.Hex2BinRegion | lib/estr.c:794-803 | the zero-padded expansion is the result followed by zeros and reads back as the result |
| Text.IndexOfFrom | lib/estr.c:606 | strstr from position k: a match, with none before it; or no match anywhere from k on |
| Text.IndexOf | lib/estr.c:601-609 | strstr: the first occurrence, None exactly when there is none, and 0 for an empty needle |
| Text.Occurrences | lib/estr.c:618-625 | the count of positions holding `c` is the multiplicity of `c` in the multiset of the string |
| Text.StartsWith | lib/estr.c:814-821 | `prefix` is a prefix: fits and the first characters are equal (both directions) |
| Text.EndsWith | lib/estr.c:830-837 | `suffix` is a suffix: fits and the last characters are equal (both directions) |
| Text.StrNEqNoNul | lib/estr.c:820 | strncmp(a, b, n) == 0 is equality of the first n characters when one side has no NUL among them |
| Text.AllDigits | lib/estr.c:639-641 | every character is a decimal digit (both directions) |
| Text.IsInt | lib/estr.c:629-643 | a valid int: an optional '-' then at least one decimal digit and nothing else (both directions) |
| Text.IsIntExamples | lib/estr.c:629-643 | "-123" and "0" pass; "", "-", "12a", "1-2" and "--1" do not |
| Text.RawSubstring | api/estr.h:49-56 | the `len` characters from `begin`, in order |
| Format.RenderNoNul | lib/estrbuffer.c:360-421 | the text the scan loop appends from any position to the format's terminator (`RenderFrom`, and `Render` from the start of the C string), when defined, holds no NUL |
| Format.ConversionCases | lib/estrbuffer.c:375-416 | %f is refused; %c, %s and the integer conversions consume exactly one argument and fail only when it is missing, or when a `char*` meets a numeric conversion or a number meets %s (a `char` is promoted and accepted by %d, an int by %c); every other character, '%' included, is echoed without consuming anything |
| Format.IntTextCases | lib/estrbuffer.c:382-405 | at least one character; undefined exactly when %d or %i negates INT_MIN |
| Format.PromotedArgument | lib/estrbuffer.c:380-384 | a `char` given to an integer conversion prints as its code; an int given to %c prints its low byte, and nothing when that byte is NUL |
| Format.PromotedCharExamples | lib/estrbuffer.c:380 | "%c" of 65 or 321 gives "A", of 256 gives "" |
| Format.PromotedIntExample | lib/estrbuffer.c:384 | "%d" of 'A' gives "65" |
| Format.WidthQuirkDigits | lib/estrbuffer.c:368 | `(isdigit(*p) \|\| *p == ' ') && isdigit(*p+1)` holds exactly for '0'..'8' |
| Format.AsUnsigned | lib/estrbuffer.c:391-399 | an int read as unsigned int is its value modulo 2^32 |
| Format.AsULong | lib/estrbuffer.c:401-403 | an int passed to an unsigned long parameter is its value modulo 2^64 |
| Format.ConversionNoNul | lib/estrbuffer.c:375-416 | what a conversion appends holds no NUL |
| Format.Step | lib/estrbuffer.c:360-421 | one pass of the scan moves forward and stays within the format |
| Format.DirectiveParts | lib/estrbuffer.c:361-375 | a directive is '%', an optional '#', an optional width pair, then the conversion character |
| Format.RenderLiteral | lib/estrbuffer.c:417-419 | a format with no '%' is copied verbatim |
| Format.RenderChar | lib/estrbuffer.c:417-419 | a character other than '%' is copied and the scan moves on by one |
| Format.RenderConversion | lib/estrbuffer.c:375-421 | a plain directive whose conversion succeeds emits its text and the scan resumes after the conversion character |
| Format.SingleConversion | lib/estrbuffer.c:375-416 | "%c" on its own renders as the conversion's text, or the conversion's error |
| Format.IntConversion | lib/estrbuffer.c:383-404 | an integer conversion on one int renders as the integer's text |
| Format.ConversionOfInt | lib/estrbuffer.c:383-404 | an integer conversion takes exactly one argument and yields its text |
| Format.PercentAndUnknown | lib/estrbuffer.c:376-378 | "%%" emits "%", and an unknown conversion character is emitted as itself |
| Format.SignedDecimal | lib/estrbuffer.c:383-390 | %d is '-' and the digits of -v for negative v, the digits of v otherwise, and reads back as v |
| Format.UnsignedConversion | lib/estrbuffer.c:391-399 | %u, %o, %x, %p: the digits read back as the argument modulo 2^32 |
| Format.UpperHexConversion | lib/estrbuffer.c:401-405 | %X: the upper-case digits read back as the argument modulo 2^64 |
| Format.ValueToUpper | lib/estrbuffer.c:403 | upper-casing hex digits keeps their value |
| Format.StepPlain | lib/estrbuffer.c:375-416 | a plain directive emits the conversion's text and moves past it |
| Format.StepHash | lib/estrbuffer.c:363-366 | '#' emits "0x" before the conversion |
| Format.RenderStep | lib/estrbuffer.c:360-421 | rendering from p is the step's text followed by rendering from where the step ends |
| Format.SingleIntConversion | lib/estrbuffer.c:363-404 | "%#c" on an int is "0x" followed by the integer's text |
| Format.WidthQuirkStep | lib/estrbuffer.c:368-374 | "%D?" with D in '0'..'8' emits D, D+1 times, and skips the character after D |
| Format.RenderExample | lib/estrbuffer.c:352-424 | "%d-%x-%s" with -5, 255, "ok" renders "-5-ff-ok" |
| Format.WidthExamples | lib/estrbuffer.c:368-374 | "%02x" of 255 is "0ff", "%9d" is "9d", and "%5d" reads past the terminator |
| Format.UndefinedExamples | lib/estrbuffer.c:362 | a trailing '%', %f, a missing argument, an int read as `char*` and %d of INT_MIN are errors |
| EStrBuffer.InPlaceAsWrittenOverflows | lib/estrbuffer.c:204 | the test as written and the correct test disagree exactly when the terminator would land one past the region |
| EStrBuffer.NewBufferAppendOverflows | lib/estrbuffer.c:204 | a new buffer passes the written test for "ab" although it has no room for the terminator |
| EStrBuffer.GrowBy | lib/estrbuffer.c:207 | the growth is at least one, and exactly enough for the string and terminator when the region is too small |
| EStrBuffer.Buffer.ToStr | lib/estrbuffer.c:110-114 | the C string in the region: no NUL, shorter than the region, not longer than the counter |
| EStrBuffer.Buffer.constructor | lib/estrbuffer.c:60-72 | a new buffer holds "" in a fresh two-character region with counter 0 |
| EStrBuffer.AppendsPassRegion | lib/estrbuffer.c:204-212 | appends alone leave the counter past the region: "abc", "x", "y" on a new buffer give counter 7 with a 6-character region |
| EStrBuffer.Buffer.Length | lib/estrbuffer.c:122-126 | the counter, never below the string's length |
| EStrBuffer.Buffer.Capacity | lib/estrbuffer.c:134-138 | the region size minus the terminator's place |
| EStrBuffer.Buffer.SetCapacity | lib/estrbuffer.c:148-163 | same size or failure: nothing changes; otherwise a region of capacity+1 holding the string cut to the capacity |
| EStrBuffer.Buffer.Clear | lib/estrbuffer.c:97-102 | the region stays; its first `length` characters are zeroed and the rest kept; the string becomes "" and the counter 0 |
| EStrBuffer.Buffer.Append | lib/estrbuffer.c:186-222 | NULL fails; otherwise the string gains the new one, in place when it fits with its terminator, else in a region grown by GrowBy; a failed realloc keeps the string but sets the counter to alength-1 |
| EStrBuffer.Buffer.AppendChar | lib/estrbuffer.c:172-177 | NUL succeeds and changes nothing; success iff the allocation succeeds or the character fits in place; on success the string gains `c`, the counter grows by its length, and the region is kept in place or is exactly counter+1; on failure the string is kept and the counter is alength-1 |
| EStrBuffer.Buffer.Copy | lib/estrbuffer.c:245-250 | NULL gives -1 and "" with counter 0; otherwise success iff the allocation succeeds or `s` fits in the region; on success the string is `s` with the counter at its length (region kept in place, or exactly counter+1); on failure "" with the counter at alength-1 |
| EStrBuffer.Buffer.CopyChar | lib/estrbuffer.c:231-236 | success iff the allocation succeeds or `c` fits in the region; on success the string is `c` alone ("" for NUL) with the counter at its length; on failure "" with the counter at alength-1 |
| EStrBuffer.Buffer.TrimToSize | lib/estrbuffer.c:258-265 | the string is kept; on success the region is exactly counter+1 |
| EStrBuffer.Buffer.Erase2 | lib/estrbuffer.c:274-281 | out of range fails and changes nothing; otherwise the characters from `index` to the counter are zeroed, the rest of the region kept, the string is cut at `index` and the counter is its length |
| EStrBuffer.Buffer.Erase | lib/estrbuffer.c:291-299 | out of range fails; otherwise the run of `n` at `index` is removed from the string and the end of the used part zeroed |
| EStrBuffer.Buffer.Insert | lib/estrbuffer.c:309-325 | out of range fails; at the counter it appends, succeeding iff the allocation succeeds or `s` fits in place, and on failure keeps the string; up to strlen the string becomes prefix + s + the old tail; past strlen but before the counter it becomes the string + s + the C string stored from `index` |
| EStrBuffer.Buffer.InsertInside | lib/estrbuffer.c:317-324 | the region stays the same or is fresh; with both allocations succeeding, the string becomes prefix + s + old tail (index up to strlen) or string + s + the C string stored from `index` (index past strlen) |
| EStrBuffer.Buffer.VPrintf | lib/estrbuffer.c:352-424 | the string gains exactly `Render(fmt, args)` |
| EStrBuffer.Buffer.AppendPiece | lib/estrbuffer.c:360-421 | one pass of the loop appends the step's text and moves to where the step ends |
| EStrBuffer.Buffer.AppendDirective | lib/estrbuffer.c:361-416 | one directive appends the step's text and consumes the step's arguments |
| EStrBuffer.Buffer.AppendRepeated | lib/estrbuffer.c:370-371 | the string gains `count` copies of `c` |
| EStrBuf.AppendCount | lib/estr.c:279 | the counted length is str_len, plus one when it is the string's own strlen, and always exceeds strlen |
| EStrBuf.CountRegion | lib/estr.c:622-623 | counting to the counter takes in the string, its terminator and what lies between; exact when counter = strlen + 1 |
| EStrBuf.CaseMapRegion | lib/estr.c:539-553 | mapping the first `length` characters of a region case-maps its C string and keeps its terminator |
| EStrBuf.EStr.Content | lib/estr.c:155-159 | the C string in the region: no NUL, shorter than the region, and the counter is past it (or both are 0) |
| EStrBuf.EStr.ToStr | lib/estr.c:155-159 | the string exactly when the tags are intact and storage exists, NULL otherwise |
| EStrBuf.EStr.NewStringL | lib/estr.c:85-100 | NULL gives an object with no storage; otherwise the content is the string and capacity = length = count + 1 |
| EStrBuf.EStr.NewString | lib/estr.c:108-110 | as NewStringL with count strlen + 1: capacity = length = strlen + 2 |
| EStrBuf.EStr.New | lib/estr.c:117-119 | the tags are set, but set_capacity refuses an object without storage, so the object stays empty and invalid |
| EStrBuf.EStr.Length | lib/estr.c:183-187 | 0 for an invalid object or a zero counter, else the counter minus one; never below the string's length |
| EStrBuf.EStr.Capacity | lib/estr.c:195-199 | 0 for an invalid object, else the region size minus one |
| EStrBuf.EStr.SetCapacity | lib/estr.c:208-224 | EINVAL, or 0 for the same size, or ENOMEM with nothing changed; else a region of n+1 holding the string cut to n, the counter raised to the region size |
| EStrBuf.EStr.Clear | lib/estr.c:141-146 | a refused handle gives EINVAL and changes nothing; otherwise the region stays, its first `length` characters are zeroed and the rest kept; the string becomes "" and the counter 0 |
| EStrBuf.EStr.AppendL | lib/estr.c:272-307 | fails exactly on bad tags (EINVAL) or a failed realloc (ENOMEM), changing nothing; otherwise the string gains `s` and the counter and capacity grow as each of the three branches says |
| EStrBuf.EStr.AppendToRegion | lib/estr.c:291-305 | with a region: fails, changing nothing, exactly when the growth fails; otherwise the string gains `src` in place or in a region grown by the count |
| EStrBuf.EStr.Append | lib/estr.c:247-249 | the string gains `s`; the counter grows by strlen + 1 |
| EStrBuf.EStr.AppendChar | lib/estr.c:233-238 | the string gains `c` (nothing for NUL); the counter grows by 2 |
| EStrBuf.EStr.AppendS | lib/estr.c:258-262 | an invalid argument object fails with EINVAL; else the string gains the other object's string |
| EStrBuf.EStr.CopyL | lib/estr.c:341-346 | the string becomes `s` with the counted length; "" on failure |
| EStrBuf.EStr.Copy | lib/estr.c:330-332 | the string becomes `s`; "" on failure |
| EStrBuf.EStr.CopyChar | lib/estr.c:316-321 | the string becomes `c` alone; "" on failure |
| EStrBuf.EStr.TrimToSize | lib/estr.c:354-360 | the string is kept; already trimmed changes nothing; success leaves capacity = length or length + 1 |
| EStrBuf.EStr.Erase2 | lib/estr.c:369-379 | an index at or past Length() fails with EINVAL; otherwise the characters from `index` to the counter are zeroed, the rest of the region kept, the string is cut at `index` and the counter is strlen + 1 |
| EStrBuf.EStr.Erase | lib/estr.c:389-399 | no tag check; out of range fails; otherwise the run of `n` is removed from the string and the counter is strlen + 1 |
| EStrBuf.EStr.Insert | lib/estr.c:409-428 | out of range fails with EINVAL; with both allocations succeeding, an index up to strlen makes the string prefix + s + old tail, and an index past strlen but before Length() makes it the string + s + the C string stored from `index` |
| EStrBuf.EStr.InsertInside | lib/estr.c:419-426 | the handle stays valid and bounded, `errno` is untouched or ENOMEM, and with both allocations succeeding the string is as for Insert in both index ranges |
| EStrBuf.EStr.CaseMap | lib/estr.c:535-554 | the first `length` characters are case-mapped and nothing else changes |
| EStrBuf.EStr.ToLower | lib/estr.c:535-543 | the string becomes its lower-case form |
| EStrBuf.EStr.ToUpper | lib/estr.c:546-554 | the string becomes its upper-case form |
| EStrBuf.EStr.Count | lib/estr.c:618-625 | (size_t) -1 when invalid; else the occurrences of `c` below the counter, which are those in the string when the counter is strlen + 1 |
| EStrBuf.EStr.IsInt | lib/estr.c:634-643 | as written: true exactly for a valid object with counter 0, so false for every non-empty string, and true only for "", which is no int |
| EStrBuf.EStr.IndexOf | lib/estr.c:601-609 | -1 for an invalid object, NULL or no match; else the first occurrence in the string |
| EStrBuf.EStr.Substring | lib/estr.c:564-570 | NULL unless valid and within Length(); within the string it is the raw substring; a window that reaches the terminator gives the rest of the string from `begin`; one that starts past it gives the C string stored there |
| EStrBuf.EStr.StartsWith | lib/estr.c:814-821 | true exactly when valid, non-NULL and the string starts with the prefix |
| EStrBuf.EStr.EndsWith | lib/estr.c:830-837 | as written: false for a suffix longer than the counter; otherwise compares the window ending at the counter, so with counter strlen + 1 no non-empty suffix matches |
| EStrBuf.EStr.VPrintf | lib/estr.c:455-528 | invalid: -1 and nothing changes; else the string becomes exactly `Render(fmt, args)` |
| EStrBuf.EStr.AppendPiece | lib/estr.c:465-524 | one pass of the loop appends the step's text |
| EStrBuf.EStr.AppendDirective | lib/estr.c:466-519 | one directive appends the step's text and consumes its arguments |
| EStrBuf.EStr.AppendFlags | lib/estr.c:467-478 | '#' and the width pair append their text and give the conversion's position |
| EStrBuf.EStr.AppendConversion | lib/estr.c:479-519 | the conversion's text is appended and its arguments consumed |
| EStrBuf.EStr.AppendInt | lib/estr.c:486-504 | an integer conversion appends the integer's text |
| EStrBuf.EStr.AppendUpperHex | lib/estr.c:507-512 | %X appends the upper-cased hex digits of the sign-extended argument |
| EStrBuf.EStr.UpperHex | lib/estr.c:508-510 | the scratch object ends up holding the upper-cased digits |
| EStrBuf.EStr.AppendRepeated | lib/estr.c:475-476 | the string gains `count` copies of `c` |
| EStrToken.SplitCondition | lib/estrtoken.c:168-173 | true exactly when `c` is one of the separator characters before sep's NUL |
| EStrToken.RunEnd | lib/estrtoken.c:129-140 | the run from `o` is free of separators and ends at a separator or at the end |
| EStrToken.Next | lib/estrtoken.c:118-148 | no token once the offset reaches the end; otherwise the offset strictly increases and stays at most len + 1 |
| EStrToken.Fields | lib/estrtoken.c:118-148 | the reference split: at least one field |
| EStrToken.NextSpec | lib/estrtoken.c:129-147 | a token is the first maximal separator-free run after the offset, everything skipped is separators, and the offset is one past its end; NULL means only separators remained and the offset is at the end |
| EStrToken.FieldsRun | lib/estrtoken.c:129-142 | the first run found is the first field |
| EStrToken.TokensAreNonEmptyFields | lib/estrtoken.c:118-148 | the tokens are exactly the non-empty fields, in order: adjacent separators give no empty token |
| EStrToken.TokensRun | lib/estrtoken.c:129-147 | a run starting at the offset is the next token, and the tokens go on after it |
| EStrToken.FieldsExample | lib/estrtoken.c:118-148 | "a,b,," splits at every separator into "a", "b", "" and "" |
| EStrToken.TokensShape | lib/estrtoken.c:143-146 | every token is non-empty and free of separators |
| EStrToken.CountCalls | lib/estrtoken.c:76-88 | count = number of tokens, plus one when the text is non-empty and all separators or ends in two separators |
| EStrToken.CountExample | lib/estrtoken.c:76-88 | "a,b,," has tokens "a" and "b" but count reports 3 |
| EStrToken.Cursor.Source | lib/estrtoken.c:65 | the text scanned is the string up to its NUL |
| EStrToken.Cursor.Init | lib/estrtoken.c:61-68 | keeps both strings, len = strlen(str), offset 0 |
| EStrToken.Cursor.HasMoreTokens | lib/estrtoken.c:106-110 | offset < len; false means no token and no call are left |
| EStrToken.Cursor.NextToken | lib/estrtoken.c:118-148 | the token and new offset are exactly `Next`; the offset strictly increases up to len + 1; a token is non-empty and separator-free |
| EStrToken.Cursor.ScanRun | lib/estrtoken.c:129-140 | the scan loop stops at the end of the current run |
| EStrToken.Cursor.Count | lib/estrtoken.c:76-88 | offset restored; the result is the number of calls made from offset 0, i.e. tokens plus the extra call |
| EStrToken.Cursor.SetSeparator | lib/estrtoken.c:157-160 | only the separators change; text and offset stay |

## Left out

- Null handles. A Dafny object reference is never null, so the `!e` and `!t` guards are not modelled. The tag check is `EStr.Valid()`.
- The width of integers. `size_t` and the `unsigned int` fields of the tokenizer and of `estrbuffer` are unbounded. Wrap-around of counters near 2^32 or 2^64 is not modelled. The formatter's `int` arguments are 32-bit.
- Floating point. `%f` and `estr_append_float` are left out: `%f` renders as an error.
- Parts of lib/estr.c outside the buffer core: `estr_delete`, `estr_char_at`, `estr_substr`, `estr_to_int`/`estr_to_long`, `estr_printf` (the variadic wrapper of `estr_vprintf`), and the regular-expression match.
- Memory release. Nothing is freed: the scratch object of `%X` in `estr_vprintf`, the tokens that `estrtoken_count` drops, `estrtoken_release`.
- `estr_append_uint` and `estr_append_int` as standalone calls. Their use inside `estr_vprintf` is modelled by EStrBuf.EStr.AppendInt.
- The static buffers. `estr_convert` and `estr_hex2bin` fill static arrays that the next call overwrites. Text.ConvertInto and Text.Hex2BinInto fill a fresh array on each call, and the formatter uses the values Text.Convert and Text.Hex2Bin.
- EStrBuf.EStr.SetCapacity: the terminator goes in the last character of the new region. The source writes it one past the region (lib/estr.c:222), which an array cannot hold.
- EStrBuf.EStr.Insert: the tail copy has room for its terminator. The source writes it one past its malloc (lib/estr.c:421). The content after a failed append is not stated.
- EStrBuffer.Buffer.Insert: as above for lib/estrbuffer.c:318.
- EStrBuffer.Buffer.Append: appends with the correct in-place test. The written test is modelled and shown wrong under "## Findings".
- EStrBuf.EStr.NewStringL, AppendL and CopyL: require `NulIndex(s) <= strLen` (the given length is at least the string's strlen). With a smaller length the source sizes the region by that length and then `strcpy`/`strcat` the whole string, writing past the region.
- EStrBuf.EStr.AppendS: requires `other != this`. Appending an object to itself is a `strcat` whose source and destination overlap, which C leaves undefined.
- Format.IntArg: a `char` argument reads as its non-negative code. Where `char` is signed, codes 128 to 255 arrive negative, so %d would print them below zero.
- EStrBuf.EStr.InsertInside, EStrBuffer.Buffer.InsertInside and EStrBuffer.Buffer.constructor: the `tmp` malloc of both inserts (lib/estr.c:419, lib/estrbuffer.c:316) and the realloc inside `estrbuffer_new` (lib/estrbuffer.c:69-70) are taken to succeed. The source does not check them, and on failure it writes through NULL.
- EStrBuf.EStr.AppendL: requires that the malloc of the first branch succeeds (`buffer == null ==> !allocFails`). The source tests `capacity` instead of the new region (lib/estr.c:285), so a failed malloc goes on to write through NULL.
- EStrBuf.EStr.Clear, CopyL, Copy, CopyChar, Erase, Erase2, Insert, CaseMap, ToLower, ToUpper, Count, Substring, StartsWith, EndsWith and VPrintf require `Bounded()` (counter ≤ region). The first append sets `length = capacity` and shrinking can leave the counter past the region; from there these operations would read or zero memory outside it.
- EStrBuffer.Buffer.Clear, Copy, CopyChar, Erase, Erase2 and Insert require `length <= alength`. Appends alone break it: the grow branch sets the counter to the region size (lib/estrbuffer.c:210) and the next in-place append adds to it (lib/estrbuffer.c:205), as EStrBuffer.AppendsPassRegion shows. From there these operations would zero or move memory outside the region.
- EStrBuf.EStr.Erase and EStrBuffer.Buffer.Erase: the overlapping `memcpy` (lib/estrbuffer.c:295, lib/estr.c:395) is modelled as `memmove`.
- EStrBuf.EStr.VPrintf and EStrBuffer.Buffer.VPrintf: appends inside the loop are assumed to succeed, so allocation failure there is not modelled. `errno` left by deleting the scratch object is not modelled. `%s` with a NULL argument is not modelled.
- EStrBuf.EStr.IndexOf, Substring, StartsWith and EndsWith report no `errno`.
- EStrBuf.EStr.NewStringL, NewString and New: the malloc of the struct itself is assumed to succeed. The source does not check it.
- EStrBuf.EStr.EndsWith: takes a non-NULL suffix. The source calls strlen on it without a check.
- Text.Hex2Bin: requires upper-case hex digits and at most 32 of them. The source indexes its quad table out of range for any other character and overruns its 132-byte array beyond 32 digits.
- EStrToken.Cursor: the borrowed string is a value. Changes the caller makes to it after `estrtoken_init` are not seen, and neither is a `malloc` failure in `estrtoken_init`.
- In lib/estr.c `length` counts the terminator and any extra the caller passes: `estr_new_string("ab")` gives `estr_length` 3. The model keeps this as the source has it.

## Findings

| source | as written | input that shows it | evidently intended | confidence | as-written member | corrected member |
|---|---|---|---|---|---|---|
| lib/estrbuffer.c:204 | `used + slen <= alength` appends in place | a new buffer (alength 2) and "ab": the terminator lands at index 2, past the region | `used + slen < alength` | high; not executed | EStrBuffer.NewBufferAppendOverflows | EStrBuffer.Buffer.Append |
| lib/estr.c:639 | scans up to `length`, which counts the terminator; with counter 0 it scans nothing and accepts | "12" (counter 3): the NUL at index 2 is not a digit, so the result is false; a cleared object ("", counter 0) gives true | scan the string's characters and require at least one digit | high; not executed | EStrBuf.EStr.IsInt | Text.IsInt |
| lib/estr.c:836 | compares the `suffix_l` characters ending at `length` | "abc" (counter 4) and suffix "c": the window is "\0", so the result is false | compare the characters ending at strlen | high; not executed | EStrBuf.EStr.EndsWith | Text.EndsWith |

=== FILE: cstrings.dfy ===
/**
 * NUL-terminated character strings as the C library sees them, and the
 * handful of memory primitives (strcpy/strcat, bzero, memmove, realloc)
 * that the buffer operations are built from.
 *
 * A C string stored in a byte region `s` is the run of characters before
 * the first NUL: `CStr(s)`.  `strlen` is `NulIndex`.
 */
module CStrings {

  const NUL: char := '\0'

  /** A C `char*` that may be NULL. */
  datatype Option<T> = None | Some(value: T)

  /** Largest value of a 64-bit `size_t`, returned by the source for `(size_t) -1`. */
  const SIZE_MAX: int := 0xFFFF_FFFF_FFFF_FFFF

  /** No character of `s` is a NUL. */
  predicate NoNul(s: seq<char>)
  {
    forall i :: 0 <= i < |s| ==> s[i] != NUL
  }

  /** strlen: the index of the first NUL in `s`, or |s| when there is none. */
  function NulIndex(s: seq<char>): (k: nat)
    ensures k <= |s|
    ensures NoNul(s[..k])
    ensures k < |s| ==> s[k] == NUL
  {
    if s == [] then 0
    else if s[0] == NUL then 0
    else
      var k' := NulIndex(s[1..]);
      assert s[1..][..k'] == s[1..k' + 1];
      1 + k'
  }

  /** The region holds a terminator. */
  predicate HasNul(s: seq<char>)
  {
    NulIndex(s) < |s|
  }

  /** The C string stored at the start of `s`. */
  function CStr(s: seq<char>): seq<char>
  {
    s[..NulIndex(s)]
  }

  /** The first NUL is the only way to end the scan: any NUL-free prefix is
      skipped and any NUL is where strlen stops. */
  lemma {:induction false} NulIndexUnique(s: seq<char>, k: nat)
    requires k <= |s| && NoNul(s[..k]) && (k < |s| ==> s[k] == NUL)
    ensures NulIndex(s) == k
  {
    if s != [] && s[0] != NUL {
      assert k > 0;
      assert s[1..][..k - 1] == s[..k][1..];
      NulIndexUnique(s[1..], k - 1);
    }
  }

  /** A NUL-free string followed by anything: the C string keeps it whole. */
  lemma CStrAppend(a: seq<char>, b: seq<char>)
    requires NoNul(a)
    ensures NulIndex(a + b) == |a| + NulIndex(b)
    ensures CStr(a + b) == a + CStr(b)
  {
    var s := a + b;
    var k := |a| + NulIndex(b);
    assert s[..k] == a + b[..NulIndex(b)];
    NulIndexUnique(s, k);
  }

  lemma CStrOfNoNul(a: seq<char>)
    requires NoNul(a)
    ensures CStr(a) == a
    ensures CStr(a + [NUL]) == a
  {
    CStrAppend(a, []);
    CStrAppend(a, [NUL]);
  }

  /** A region whose first `n` characters are the whole C string and a NUL. */
  lemma CStrPrefixed(a: seq<char>, b: seq<char>)
    requires NoNul(a)
    ensures NulIndex(a + [NUL] + b) == |a| && CStr(a + [NUL] + b) == a
  {
    CStrAppend(a, [NUL] + b);
    assert a + [NUL] + b == a + ([NUL] + b);
  }

  /** Cutting a region after its terminator does not change its C string;
      cutting it before the terminator keeps every character that is left. */
  lemma CStrTake(s: seq<char>, n: nat)
    requires n <= |s|
    ensures n > NulIndex(s) ==> CStr(s[..n]) == CStr(s)
    ensures n <= NulIndex(s) ==> CStr(s[..n]) == s[..n]
  {
    var k := NulIndex(s);
    var c := s[..n];
    if n > k {
      assert c[..k] == s[..k] && c[k] == s[k];
      NulIndexUnique(c, k);
    } else {
      assert c == s[..k][..n];
      NoNulSlice(s[..k], 0, n);
      assert s[..k][0..n] == c;
      NulIndexUnique(c, n);
    }
  }

  /** Characters after the terminator do not affect the C string. */
  lemma CStrIgnoresTail(s: seq<char>, t: seq<char>)
    requires HasNul(s) && |s| == |t|
    requires t[..NulIndex(s) + 1] == s[..NulIndex(s) + 1]
    ensures NulIndex(t) == NulIndex(s) && CStr(t) == CStr(s)
  {
    var k := NulIndex(s);
    var p := s[..k + 1];
    assert t[..k] == p[..k] == s[..k];
    assert t[k] == p[k] == s[k];
    NulIndexUnique(t, k);
  }

  /** realloc followed by a terminator at `cap`: a region `t` that agrees
      with `r` on its first `m` characters, enough of them to hold either the
      old string and its NUL or the first `cap` characters, keeps the old
      string cut to `cap` characters. */
  lemma CStrAfterResize(r: seq<char>, t: seq<char>, m: nat, cap: nat)
    requires HasNul(r) && m <= |r| && m <= |t| && t[..m] == r[..m]
    requires cap < |t| && t[cap] == NUL
    requires NulIndex(r) < m || cap <= m
    ensures CStr(t) == CStr(r)[..Min(NulIndex(r), cap)]
  {
    var k := NulIndex(r);
    var e := if k < cap then k else cap;
    PrefixAgrees(r, t, m, e);
    NoNulPrefix(r, e);
    NulIndexUnique(t, e);
  }

  /** Two regions that agree on their first `m` characters agree on any
      shorter prefix and at each index below `m`. */
  lemma PrefixAgrees(r: seq<char>, t: seq<char>, m: nat, e: nat)
    requires e <= m <= |r| && m <= |t| && t[..m] == r[..m]
    ensures t[..e] == r[..e] && (e < m ==> t[e] == r[e])
  {
    assert t[..e] == t[..m][..e];
    assert r[..e] == r[..m][..e];
    if e < m {
      assert t[..m][e] == r[..m][e];
    }
  }

  /** A prefix of a region no longer than its string is NUL-free and is that
      prefix of the string. */
  lemma NoNulPrefix(r: seq<char>, e: nat)
    requires e <= NulIndex(r)
    ensures NoNul(r[..e]) && r[..e] == CStr(r)[..e]
  {
    var k := NulIndex(r);
    assert r[..e] == r[..k][..e];
    NoNulSlice(r[..k], 0, e);
    assert r[..k][0..e] == r[..k][..e];
  }



  /** Any slice of a NUL-free sequence is NUL-free. */
  lemma NoNulSlice(s: seq<char>, i: nat, j: nat)
    requires i <= j <= |s| && NoNul(s)
    ensures NoNul(s[i..j])
  {
    forall x | 0 <= x < j - i
      ensures s[i..j][x] != NUL
    {
      assert s[i..j][x] == s[i + x];
    }
  }

  /** strlen stops at or before any NUL. */
  lemma {:induction false} NulBound(s: seq<char>, i: nat)
    requires i < |s| && s[i] == NUL
    ensures NulIndex(s) <= i && HasNul(s)
  {
    if s[0] != NUL {
      NulBound(s[1..], i - 1);
    }
  }

  /** A region with a NUL exactly where `r` has one, over a prefix that holds
      `r`'s terminator, has its terminator at the same place. */
  lemma SameNuls(r: seq<char>, t: seq<char>, len: nat)
    requires HasNul(r) && NulIndex(r) < len <= |r| && len <= |t|
    requires forall i :: 0 <= i < len ==> (t[i] == NUL <==> r[i] == NUL)
    ensures NulIndex(t) == NulIndex(r)
  {
    var k := NulIndex(r);
    forall i | 0 <= i < k
      ensures t[..k][i] != NUL
    {
      assert r[..k][i] == r[i];
    }
    NulIndexUnique(t, k);
  }

  /** A slice inside the string, read as a C string, is that slice of the string. */
  lemma SliceOfCStr(r: seq<char>, b: nat, e: nat)
    requires b <= e <= |r|
    ensures e <= NulIndex(r) ==> CStr(r[b..e]) == CStr(r)[b..e]
  {
    var k := NulIndex(r);
    if e <= k {
      var c := r[..k];
      assert CStr(r) == c;
      assert r[b..e] == c[b..e];
      NoNulSlice(c, b, e);
      CStrOfNoNul(c[b..e]);
    }
  }

  /** A slice that starts inside the string and reaches its terminator, read
      as a C string, is the rest of the string from its start. */
  lemma SliceAcrossNul(r: seq<char>, b: nat, e: nat)
    requires b <= e <= |r|
    ensures b <= NulIndex(r) < e ==> CStr(r[b..e]) == CStr(r)[b..]
  {
    var k := NulIndex(r);
    if b <= k < e {
      var s := r[b..e];
      forall i | 0 <= i < k - b
        ensures s[i] == r[..k][b + i] && s[i] != NUL
      {
      }
      assert s[k - b] == r[k] == NUL;
      NulIndexUnique(s, k - b);
      assert s[..k - b] == CStr(r)[b..];
    }
  }

  /** strndup of `n` characters at `b` of a region: the window of the
      string when it lies inside it, the rest of the string when the window
      reaches the terminator. */
  lemma WindowOfRegion(r: seq<char>, b: nat, n: nat)
    requires b + n <= |r|
    ensures |CStr(r[b..b + n])| <= n && NoNul(CStr(r[b..b + n]))
    ensures b + n <= |CStr(r)| ==> CStr(r[b..b + n]) == CStr(r)[b..b + n]
    ensures b <= |CStr(r)| < b + n ==> CStr(r[b..b + n]) == CStr(r)[b..]
  {
    SliceOfCStr(r, b, b + n);
    SliceAcrossNul(r, b, b + n);
  }

  /** The first |p| characters of a region equal a NUL-free `p` exactly when
      `p` is a prefix of the region's C string. */
  lemma PrefixOfRegion(r: seq<char>, p: seq<char>)
    requires HasNul(r) && NoNul(p) && |p| <= |r|
    ensures r[..|p|] == p <==> |p| <= |CStr(r)| && CStr(r)[..|p|] == p
  {
    var k := NulIndex(r);
    if |p| <= k {
      assert r[..|p|] == r[..k][..|p|];
    } else {
      assert r[..|p|][k] == NUL;
    }
  }

  /** The part of the string from `i` on is a NUL-free slice of the region. */
  lemma CStrFrom(r: seq<char>, i: nat)
    requires i <= NulIndex(r)
    ensures NoNul(r[i..NulIndex(r)]) && CStr(r)[i..] == r[i..NulIndex(r)]
  {
    var k := NulIndex(r);
    forall j | i <= j < k
      ensures r[j] != NUL
    {
      assert r[..k][j] == r[j];
    }
  }

  /** Splitting a region slice at a terminator it contains. */
  lemma SplitAtNul(r: seq<char>, i: nat, k: nat, len: nat, tail: seq<char>)
    requires i <= k < len <= |r| && r[k] == NUL
    ensures r[i..len] + tail == r[i..k] + [NUL] + (r[k + 1..len] + tail)
  {
    assert r[i..len] == r[i..k] + [r[k]] + r[k + 1..len];
  }

  /** What an erase leaves when the erased run lies inside the string:
      the string without that run. */
  lemma EraseKeeps(r: seq<char>, index: nat, n: nat, len: nat)
    requires HasNul(r) && NulIndex(r) <= len <= |r| && index + n <= len
    ensures index + n <= NulIndex(r) ==>
      CStr(r[..index] + r[index + n..len] + Zeros(n) + r[len..]) == CStr(r)[..index] + CStr(r)[index + n..]
  {
    var k := NulIndex(r);
    if index + n <= k {
      CStrFrom(r, 0);
      assert r[0..k] == r[..k];
      EraseCore(r, index, n, k, len);
    }
  }

  /** EraseKeeps with the terminator's index `k` given by its defining facts. */
  lemma EraseCore(r: seq<char>, index: nat, n: nat, k: nat, len: nat)
    requires index + n <= k <= len <= |r| && k < |r| && r[k] == NUL
    requires NoNul(r[..k])
    ensures CStr(r[..index] + r[index + n..len] + Zeros(n) + r[len..]) == r[..k][..index] + r[..k][index + n..]
  {
    var head := r[..index];
    var mid := r[index + n..k];
    assert head == r[..k][..index] && mid == r[..k][index + n..];
    assert NoNul(head + mid) by {
      forall i | 0 <= i < |head + mid|
        ensures (head + mid)[i] != NUL
      {
        if i < |head| {
          assert (head + mid)[i] == r[..k][i];
        } else {
          assert (head + mid)[i] == r[..k][i + n];
        }
      }
    }
    var region := r[..index] + r[index + n..len] + Zeros(n) + r[len..];
    if k < len {
      SplitAtNul(r, index + n, k, len, Zeros(n) + r[len..]);
      assert region == head + mid + [NUL] + (r[k + 1..len] + Zeros(n) + r[len..]);
      CStrPrefixed(head + mid, r[k + 1..len] + Zeros(n) + r[len..]);
    } else if n > 0 {
      assert region == head + mid + [NUL] + (Zeros(n - 1) + r[len..]);
      CStrPrefixed(head + mid, Zeros(n - 1) + r[len..]);
    } else {
      assert region == head + mid + [NUL] + r[len + 1..];
      CStrPrefixed(head + mid, r[len + 1..]);
    }
  }

  /** The tail an insert saves, read as a C string, is the rest of the
      string from `index`. */
  lemma TailKeeps(r: seq<char>, index: nat, len: nat)
    requires HasNul(r) && NulIndex(r) <= len <= |r| && index <= NulIndex(r)
    ensures CStr(r[index..len] + [NUL]) == CStr(r)[index..]
  {
    CStrFrom(r, index);
    TailCore(r, index, NulIndex(r), len);
  }

  /** TailKeeps with the terminator's index `k` given by its defining facts. */
  lemma TailCore(r: seq<char>, index: nat, k: nat, len: nat)
    requires index <= k <= len <= |r| && NoNul(r[index..k]) && (k < len ==> r[k] == NUL)
    ensures CStr(r[index..len] + [NUL]) == r[index..k]
  {
    var rest := r[index..k];
    if k < len {
      SplitAtNul(r, index, k, len, [NUL]);
      CStrPrefixed(rest, r[k + 1..len] + [NUL]);
    } else {
      assert r[index..len] + [NUL] == rest + [NUL] + [];
      CStrPrefixed(rest, []);
    }
  }

  function Zeros(n: nat): (z: seq<char>)
    ensures |z| == n && forall i :: 0 <= i < n ==> z[i] == NUL
  {
    seq(n, _ => NUL)
  }

  function Repeat(c: char, n: nat): (r: seq<char>)
    ensures |r| == n && forall i :: 0 <= i < n ==> r[i] == c
  {
    seq(n, _ => c)
  }

  /** strcpy/strcat: the characters of `s` followed by a NUL, written at `k`. */
  method WriteCStr(a: array<char>, k: nat, s: seq<char>)
    requires k + |s| < a.Length
    modifies a
    ensures a[..] == old(a[..k]) + s + [NUL] + old(a[k + |s| + 1..])
  {
    ghost var before := a[..];
    forall i | k <= i < k + |s| {
      a[i] := s[i - k];
    }
    a[k + |s|] := NUL;
    assert a[..] == before[..k] + s + [NUL] + before[k + |s| + 1..];
  }

  /** bzero(a + k, n). */
  method ZeroFill(a: array<char>, k: nat, n: nat)
    requires k + n <= a.Length
    modifies a
    ensures a[..] == old(a[..k]) + Zeros(n) + old(a[k + n..])
  {
    ghost var before := a[..];
    forall i | k <= i < k + n {
      a[i] := NUL;
    }
    assert a[..] == before[..k] + Zeros(n) + before[k + n..];
  }

  /** memmove(a + dst, a + src, n) with dst <= src: the overlapping copy of
      lib/estrbuffer.c:295 and lib/estr.c:395, done as memmove does it. */
  method MoveDown(a: array<char>, dst: nat, src: nat, n: nat)
    requires dst <= src && src + n <= a.Length
    modifies a
    ensures a[..] == old(a[..dst]) + old(a[src..src + n]) + old(a[dst + n..])
  {
    ghost var before := a[..];
    forall i | dst <= i < dst + n {
      a[i] := a[i - dst + src];
    }
    var want := before[..dst] + before[src..src + n] + before[dst + n..];
    forall k | 0 <= k < a.Length
      ensures a[k] == want[k]
    {
      if dst <= k < dst + n {
        assert want[k] == before[src..src + n][k - dst];
      }
    }
    assert a[..] == want;
  }

  /** The erase step of both buffer revisions: memmove(a + index, a + index + n,
      len - (index + n)), then bzero(a + len - n, n). */
  method EraseRun(a: array<char>, index: nat, n: nat, len: nat)
    requires index + n <= len <= a.Length && HasNul(a[..]) && NulIndex(a[..]) <= len
    modifies a
    ensures a[..] == old(a[..index]) + old(a[index + n..len]) + Zeros(n) + old(a[len..])
    ensures HasNul(a[..])
    ensures n > 0 ==> NulIndex(a[..]) <= len - n
    ensures n == 0 ==> a[..] == old(a[..])
    ensures index + n <= NulIndex(old(a[..])) ==>
      CStr(a[..]) == CStr(old(a[..]))[..index] + CStr(old(a[..]))[index + n..]
  {
    ghost var before := a[..];
    MoveDown(a, index, index + n, len - (index + n));
    ghost var moved := a[..];
    ZeroFill(a, len - n, n);
    assert a[..] == before[..index] + before[index + n..len] + Zeros(n) + before[len..] by {
      assert moved[..len - n] == before[..index] + before[index + n..len];
      assert moved[len..] == before[len..];
    }
    EraseResult(before, a[..], index, n, len);
  }

  /** The C-string facts about the region an erase leaves behind. */
  lemma EraseResult(before: seq<char>, after: seq<char>, index: nat, n: nat, len: nat)
    requires index + n <= len <= |before| && HasNul(before) && NulIndex(before) <= len
    requires after == before[..index] + before[index + n..len] + Zeros(n) + before[len..]
    ensures HasNul(after)
    ensures n > 0 ==> NulIndex(after) <= len - n
    ensures n == 0 ==> after == before
    ensures index + n <= NulIndex(before) ==>
      CStr(after) == CStr(before)[..index] + CStr(before)[index + n..]
  {
    EraseKeeps(before, index, n, len);
    if n > 0 {
      NulBound(after, len - n);
    } else {
      assert after == before;
    }
  }

  /** strcpy of `s` to index `k` of a region whose first `k` characters hold
      no NUL (strcat when `k` is the old strlen): the C string becomes those
      characters followed by `s`. */
  method StrCat(a: array<char>, k: nat, s: seq<char>)
    requires k + |s| < a.Length && NoNul(a[..k]) && NoNul(s)
    modifies a
    ensures a[..] == old(a[..k]) + s + [NUL] + old(a[k + |s| + 1..])
    ensures NulIndex(a[..]) == k + |s| && CStr(a[..]) == old(a[..k]) + s
  {
    ghost var pre := a[..k];
    WriteCStr(a, k, s);
    CStrPrefixed(pre + s, a[k + |s| + 1..]);
  }

  /** realloc: a fresh region of `n` characters that starts with as much of
      the old region as fits; the characters past the old region are unspecified. */
  method Realloc(a: array?<char>, n: nat) returns (b: array<char>)
    ensures fresh(b) && b.Length == n
    ensures a != null ==> b[..Min(n, a.Length)] == a[..Min(n, a.Length)]
  {
    b := new char[n];
    if a != null {
      var m := Min(n, a.Length);
      forall i | 0 <= i < m {
        b[i] := a[i];
      }
    }
  }

  function Min(x: nat, y: nat): nat
  {
    if x <= y then x else y
  }
}

=== FILE: estr.dfy ===
/**
 * estr (lib/estr.c): a growable string object that keeps a C string in a
 * heap region `buffer` of `capacity` characters, with a `length` counter.
 *
 * Both numbers count the terminator: the getters subtract one.  The counter
 * is not the string's length plus one in general: every append adds the
 * count it is given (strlen + 1 for a plain append, lib/estr.c:248), and the
 * first append sets the counter to the whole region (lib/estr.c:282-283).
 * What every operation keeps is the invariant `Inv`: a region exists exactly
 * when the capacity is non-zero, it holds a terminator, and the counter
 * covers the string and its terminator (or is zero for "").
 *
 * The handle check of valid_ret/valid_noret is `Valid()`; `estr_new()` leaves
 * an object without storage, which that check refuses until an append gives
 * it a region (estr_appendl checks only the tags, lib/estr.c:276).
 */
module EStrBuf {
  import opened CStrings
  import opened Text
  import opened Format

  const SMAGIC: int := 0x8001
  const EMAGIC: int := 0x1337

  /** The value a call leaves in errno; `Kept` when the call does not write it. */
  datatype Errno = Kept | Zero | EINVAL | ENOMEM

  /** The counter covers a string of `n` characters and its terminator, or is
      zero and the string is empty. */
  predicate Counts(n: nat, length: nat)
  {
    n < length || n == length == 0
  }

  /** The count estr_appendl adds (lib/estr.c:279): the given one, bumped by
      one when it equals the string's own length. */
  function AppendCount(s: string, strLen: nat): (count: nat)
    ensures count == strLen || count == strLen + 1
    ensures NulIndex(s) <= strLen ==> NulIndex(s) < count
  {
    if NulIndex(s) == strLen then strLen + 1 else strLen
  }

  /** Counting over the first `len` characters of a region takes in the C
      string, its terminator and whatever lies between it and `len`. */
  lemma CountRegion(r: seq<char>, len: nat, c: char)
    requires HasNul(r) && Counts(NulIndex(r), len) && len <= |r|
    ensures c != NUL ==> Occurrences(r[..len], c) >= Occurrences(CStr(r), c)
    ensures c != NUL && len == |CStr(r)| + 1 ==> Occurrences(r[..len], c) == Occurrences(CStr(r), c)
    ensures c == NUL && len > 0 ==> Occurrences(r[..len], c) >= 1
  {
    var k := NulIndex(r);
    if len > 0 {
      assert r[..len] == CStr(r) + [NUL] + r[k + 1..len];
    }
  }

  /** A prefix of `len` characters case-mapped in place: the terminator stays
      where it was, so the C string is case-mapped as a whole. */
  lemma CaseMapRegion(r: seq<char>, t: seq<char>, len: nat, upper: bool)
    requires HasNul(r) && Counts(NulIndex(r), len) && len <= |r| == |t|
    requires forall i :: 0 <= i < len ==> t[i] == (if upper then ToUpperChar(r[i]) else ToLowerChar(r[i]))
    requires forall i :: len <= i < |r| ==> t[i] == r[i]
    ensures NulIndex(t) == NulIndex(r)
    ensures CStr(t) == if upper then ToUpperStr(CStr(r)) else ToLowerStr(CStr(r))
  {
    var k := NulIndex(r);
    if len == 0 {
      assert t == r;
    } else {
      SameNuls(r, t, len);
    }
    assert CStr(t) == t[..k];
  }

  class EStr {
    const sm: int
    const em: int
    var buffer: array?<char>
    var length: nat
    var capacity: nat

    /** No region and zero counts, or a region of `capacity` characters that
        holds a terminator, with the counter covering the string. */
    ghost predicate Inv()
      reads this, buffer
    {
      if buffer == null then capacity == 0 && length == 0
      else buffer.Length == capacity >= 1 && HasNul(buffer[..]) && Counts(NulIndex(buffer[..]), length)
    }

    /** The check of valid_ret and valid_noret (lib/estr.c:50-66) on a
        non-NULL handle: storage present and both tags intact. */
    predicate Valid()
      reads this
    {
      buffer != null && sm == SMAGIC && em == EMAGIC
    }

    /** The counter lies within the region.  Only a set_capacity below the
        counter breaks this (lib/estr.c:220 leaves the counter alone then),
        after which the operations that touch `length` characters would
        read or write past the region. */
    ghost predicate Bounded()
      reads this
    {
      length <= capacity
    }

    /** The C string held; an object without storage holds "". */
    function Content(): (s: string)
      reads this, buffer
      requires Inv()
      ensures NoNul(s) && Counts(|s|, length)
      ensures buffer != null ==> |s| < capacity
    {
      if buffer == null then [] else CStr(buffer[..])
    }

    /** estr_to_str (lib/estr.c:155-159): the string, or NULL when the check fails. */
    function ToStr(): (r: Option<string>)
      reads this, buffer
      requires Inv()
      ensures r.Some? <==> Valid()
      ensures r.Some? ==> r.value == Content() && NoNul(r.value)
    {
      if Valid() then Some(CStr(buffer[..])) else None
    }

    /** estr_new_stringl (lib/estr.c:85-100): a zeroed object with its tags;
        a string is appended with the given length, and without one the
        object asks for a capacity of 1, which the handle check refuses
        because there is no storage yet. */
    constructor NewStringL(str: Option<string>, strLen: nat)
      requires str.Some? ==> NulIndex(str.value) <= strLen
      ensures Inv() && Bounded() && sm == SMAGIC && em == EMAGIC
      ensures str.None? ==> buffer == null && length == 0 && capacity == 0 && !Valid()
      ensures str.Some? ==>
        Valid() && fresh(buffer) && Content() == CStr(str.value)
        && capacity == length == AppendCount(str.value, strLen) + 1
    {
      sm := SMAGIC;
      em := EMAGIC;
      buffer := null;
      length := 0;
      capacity := 0;
      new;
      if str.Some? {
        var _, _ := AppendL(str.value, strLen, false);
      } else {
        var _, _ := SetCapacity(1, false);
      }
    }

    /** estr_new_string (lib/estr.c:108-110): the string's own length is
        passed, so appendl bumps it and the region gets two characters more
        than the string. */
    constructor NewString(str: Option<string>)
      ensures Inv() && Bounded() && sm == SMAGIC && em == EMAGIC
      ensures str.None? ==> buffer == null && length == 0 && capacity == 0 && !Valid()
      ensures str.Some? ==>
        Valid() && fresh(buffer) && Content() == CStr(str.value)
        && capacity == length == |CStr(str.value)| + 2
    {
      sm := SMAGIC;
      em := EMAGIC;
      buffer := null;
      length := 0;
      capacity := 0;
      new;
      if str.Some? {
        var _, _ := AppendL(str.value, NulIndex(str.value), false);
      } else {
        var _, _ := SetCapacity(1, false);
      }
    }

    /** estr_new (lib/estr.c:117-119): an object without storage. */
    constructor New()
      ensures Inv() && Bounded() && sm == SMAGIC && em == EMAGIC
      ensures buffer == null && length == 0 && capacity == 0 && !Valid() && Content() == ""
    {
      sm := SMAGIC;
      em := EMAGIC;
      buffer := null;
      length := 0;
      capacity := 0;
      new;
      var _, _ := SetCapacity(1, false);
    }

    /** estr_length (lib/estr.c:183-187): the counter less the terminator, 0
        for a zero counter or a refused handle. */
    function Length(): (n: nat)
      reads this, buffer
      requires Inv()
      ensures !Valid() ==> n == 0
      ensures Valid() ==> |Content()| <= n && (if length == 0 then n == 0 else n + 1 == length)
    {
      if !Valid() then 0 else if length == 0 then 0 else length - 1
    }

    /** estr_capacity (lib/estr.c:195-199): the region size less the terminator. */
    function Capacity(): (n: nat)
      reads this, buffer
      requires Inv()
      ensures !Valid() ==> n == 0
      ensures Valid() ==> n + 1 == buffer.Length == capacity && |Content()| <= n
    {
      // a valid handle has storage, so the source's zero-capacity case cannot arise
      if !Valid() then 0 else capacity - 1
    }

    /** estr_set_capacity (lib/estr.c:208-224): reallocate to `n` characters
        plus a terminator; growing past the counter moves the counter to the
        region size, and the string is cut to fit. */
    method SetCapacity(n: nat, allocFails: bool) returns (r: int, err: Errno)
      requires Inv()
      modifies this
      ensures Inv() && (buffer == old(buffer) || fresh(buffer))
      ensures !old(Valid()) || old(Capacity()) == n || allocFails ==>
        buffer == old(buffer) && length == old(length) && capacity == old(capacity)
      ensures !old(Valid()) ==> r == -1 && err == EINVAL
      ensures old(Valid()) && old(Capacity()) == n ==> r == 0 && err == Zero
      ensures old(Valid()) && old(Capacity()) != n && allocFails ==> r == -1 && err == ENOMEM
      ensures old(Valid()) && old(Capacity()) != n && !allocFails ==>
        r == 0 && err == Zero && Valid() && fresh(buffer) && capacity == n + 1
        && length == (if n + 1 > old(length) then n + 1 else old(length))
        && Content() == old(Content())[..Min(|old(Content())|, n)]
    {
      if !Valid() {
        return -1, EINVAL;
      }
      if Capacity() == n {
        return 0, Zero;
      }
      if allocFails {
        return -1, ENOMEM;
      }
      ghost var before := buffer[..];
      var tmp := Realloc(buffer, n + 1);
      ghost var m := Min(n, capacity);
      assert tmp[..m] == before[..m] by {
        assert tmp[..Min(n + 1, capacity)][..m] == before[..Min(n + 1, capacity)][..m];
      }
      capacity := n + 1;
      if capacity > length {
        length := capacity;
      }
      // the terminator goes in the last character of the new region; the
      // source writes it one past the region (lib/estr.c:222)
      tmp[n] := NUL;
      CStrAfterResize(before, tmp[..], m, n);
      buffer := tmp;
      r, err := 0, Zero;
    }

    /** estr_clear (lib/estr.c:141-146): zero the first `length` characters
        and reset the counter. */
    method Clear() returns (err: Errno)
      requires Inv() && Bounded()
      modifies this, buffer
      ensures Inv() && Bounded() && buffer == old(buffer) && capacity == old(capacity)
      ensures !old(Valid()) ==>
        err == EINVAL && length == old(length)
        && (buffer != null ==> buffer[..] == old(buffer[..]))
      ensures old(Valid()) ==>
        err == Zero && Valid() && length == 0 && Content() == ""
        && buffer[..] == Zeros(old(length)) + old(buffer[length..])
    {
      if !Valid() {
        return EINVAL;
      }
      ghost var before := buffer[..];
      ZeroFill(buffer, 0, length);
      if length > 0 {
        NulIndexUnique(buffer[..], 0);
      } else {
        assert buffer[..] == before;
      }
      length := 0;
      err := Zero;
    }

    /** estr_appendl (lib/estr.c:272-307): append the C string `s`, counting
        `strLen` characters for it (one more when that is its own length).
        Only the tags are checked.  Without a region, one is allocated for
        exactly the count and its terminator, and the counter becomes the
        region size; with room for the count, the string is written in place;
        otherwise the region grows by the count. */
    method AppendL(s: string, strLen: nat, allocFails: bool) returns (r: int, err: Errno)
      requires Inv() && NulIndex(s) <= strLen
      requires buffer == null ==> !allocFails
      modifies this, buffer
      ensures Inv() && (buffer == old(buffer) || fresh(buffer))
      ensures old(Bounded()) ==> Bounded()
      ensures r == 0 <==>
        sm == SMAGIC && em == EMAGIC &&
        (!allocFails || old(capacity) == 0 || old(length) + AppendCount(s, strLen) < old(capacity))
      ensures r == 0 ==> err == Kept && Valid() && Content() == old(Content()) + CStr(s)
      ensures r != 0 ==>
        err == (if sm == SMAGIC && em == EMAGIC then ENOMEM else EINVAL)
        && buffer == old(buffer) && length == old(length) && capacity == old(capacity)
        && (buffer != null ==> buffer[..] == old(buffer[..]))
      ensures r == 0 && old(capacity) == 0 ==>
        fresh(buffer) && capacity == length == AppendCount(s, strLen) + 1
      ensures r == 0 && old(capacity) != 0 ==>
        length == old(length) + AppendCount(s, strLen)
        && (if old(length) + AppendCount(s, strLen) < old(capacity)
            then buffer == old(buffer) && capacity == old(capacity)
            else fresh(buffer) && capacity == old(capacity) + AppendCount(s, strLen))
    {
      if sm != SMAGIC || em != EMAGIC {
        return -1, EINVAL;
      }
      var count := AppendCount(s, strLen);
      var src := CStr(s);
      if capacity == 0 {
        capacity := count + 1;
        length := capacity;
        // the source tests `capacity` instead of the new region here
        // (lib/estr.c:285), so a failed malloc is not caught
        var a := new char[capacity];
        StrCat(a, 0, src);
        buffer := a;
        return 0, Kept;
      }
      var ok := AppendToRegion(src, count, allocFails);
      if !ok {
        return -1, ENOMEM;
      }
      r, err := 0, Kept;
    }

    /** The part of estr_append_l that has a region (lib/estr.c:289-304):
        write `src` at the terminator in place when the counter plus `count`
        stays below the capacity, else grow the region by `count` first.
        Fails, changing nothing, only when that growth fails. */
    method AppendToRegion(src: string, count: nat, allocFails: bool) returns (ok: bool)
      requires Inv() && buffer != null && NoNul(src) && |src| < count
      modifies this, buffer
      ensures Inv() && buffer != null && (buffer == old(buffer) || fresh(buffer))
      ensures old(Bounded()) ==> Bounded()
      ensures ok <==> !allocFails || old(length) + count < old(capacity)
      ensures ok ==> Content() == old(Content()) + src && length == old(length) + count
      ensures ok ==>
        if old(length) + count < old(capacity)
        then buffer == old(buffer) && capacity == old(capacity)
        else fresh(buffer) && capacity == old(capacity) + count
      ensures !ok ==>
        buffer == old(buffer) && length == old(length) && capacity == old(capacity)
        && buffer[..] == old(buffer[..])
    {
      ghost var before := buffer[..];
      var used := NulIndex(buffer[..]);
      assert before[..used] == old(Content());
      if length + count < capacity {
        length := length + count;
        StrCat(buffer, used, src);
      } else {
        if allocFails {
          return false;
        }
        var tmp := Realloc(buffer, capacity + count);
        assert tmp[..used] == before[..used] by {
          assert tmp[..capacity][..used] == before[..capacity][..used];
        }
        StrCat(tmp, used, src);
        capacity := capacity + count;
        length := length + count;
        buffer := tmp;
      }
      ok := true;
    }

    /** estr_append (lib/estr.c:247-249): the count is strlen(s) + 1. */
    method Append(s: string, allocFails: bool) returns (r: int, err: Errno)
      requires Inv() && (buffer == null ==> !allocFails)
      modifies this, buffer
      ensures Inv() && (buffer == old(buffer) || fresh(buffer)) && (old(Bounded()) ==> Bounded())
      ensures r == 0 <==>
        sm == SMAGIC && em == EMAGIC &&
        (!allocFails || old(capacity) == 0 || old(length) + |CStr(s)| + 1 < old(capacity))
      ensures r == 0 ==> err == Kept && Valid() && Content() == old(Content()) + CStr(s)
      ensures r == 0 && old(capacity) != 0 ==> length == old(length) + |CStr(s)| + 1
      ensures r != 0 ==> Content() == old(Content()) && length == old(length) && capacity == old(capacity)
    {
      r, err := AppendL(s, NulIndex(s) + 1, allocFails);
    }

    /** estr_append_char (lib/estr.c:233-238): `c` as a two-character
        string with count 2; a NUL appends nothing but still counts. */
    method AppendChar(c: char, allocFails: bool) returns (r: int, err: Errno)
      requires Inv() && (buffer == null ==> !allocFails)
      modifies this, buffer
      ensures Inv() && (buffer == old(buffer) || fresh(buffer)) && (old(Bounded()) ==> Bounded())
      ensures r == 0 <==>
        sm == SMAGIC && em == EMAGIC &&
        (!allocFails || old(capacity) == 0 || old(length) + 2 < old(capacity))
      ensures r == 0 ==> err == Kept && Valid() && Content() == old(Content()) + (if c == NUL then "" else [c])
      ensures r == 0 && old(capacity) != 0 ==> length == old(length) + 2
      ensures r != 0 ==> Content() == old(Content()) && length == old(length) && capacity == old(capacity)
    {
      if c == NUL {
        NulIndexUnique([c, NUL], 0);
      } else {
        CStrOfNoNul([c]);
        assert [c, NUL] == [c] + [NUL];
      }
      r, err := AppendL([c, NUL], 2, allocFails);
    }

    /** estr_appends (lib/estr.c:258-262): append another object's string,
        counting that object's counter. */
    method AppendS(other: EStr, allocFails: bool) returns (r: int, err: Errno)
      requires Inv() && other.Inv() && other != this && (buffer == null ==> !allocFails)
      modifies this, buffer
      ensures Inv() && (buffer == old(buffer) || fresh(buffer)) && (old(Bounded()) ==> Bounded())
      ensures !old(other.Valid()) ==> r == -1 && err == EINVAL
      ensures old(other.Valid()) ==>
        (r == 0 <==>
          sm == SMAGIC && em == EMAGIC
          && (!allocFails || old(capacity) == 0
              || old(length) + AppendCount(old(other.buffer[..]), old(other.length)) < old(capacity)))
      ensures r == 0 ==> err == Zero && Valid() && Content() == old(Content()) + old(other.Content())
      ensures r != 0 ==> Content() == old(Content()) && length == old(length) && capacity == old(capacity)
    {
      if !other.Valid() {
        return -1, EINVAL;
      }
      r, err := AppendL(other.buffer[..], other.length, allocFails);
      if r == 0 {
        err := Zero;
      }
    }

    /** estr_copyl (lib/estr.c:341-346): clear, then appendl. */
    method CopyL(s: string, strLen: nat, allocFails: bool) returns (r: int, err: Errno)
      requires Inv() && Bounded() && NulIndex(s) <= strLen
      modifies this, buffer
      ensures Inv() && Bounded() && (buffer == old(buffer) || fresh(buffer))
      ensures !old(Valid()) ==>
        r == -1 && err == EINVAL
        && buffer == old(buffer) && length == old(length) && capacity == old(capacity)
        && (buffer != null ==> buffer[..] == old(buffer[..]))
      ensures old(Valid()) ==> Valid() && (r == 0 <==> !allocFails || AppendCount(s, strLen) < old(capacity))
      ensures old(Valid()) && r == 0 ==> err == Zero && Content() == CStr(s) && length == AppendCount(s, strLen)
      ensures old(Valid()) && r != 0 ==> err == ENOMEM && Content() == "" && length == 0
    {
      if !Valid() {
        return -1, EINVAL;
      }
      var _ := Clear();
      r, err := AppendL(s, strLen, allocFails);
      if r == 0 {
        err := Zero;
      }
    }

    /** estr_copy (lib/estr.c:330-332): copyl with count strlen(s) + 1. */
    method Copy(s: string, allocFails: bool) returns (r: int, err: Errno)
      requires Inv() && Bounded()
      modifies this, buffer
      ensures Inv() && Bounded() && (buffer == old(buffer) || fresh(buffer))
      ensures !old(Valid()) ==> r == -1 && err == EINVAL && Content() == old(Content())
      ensures old(Valid()) ==> (r == 0 <==> !allocFails || |CStr(s)| + 1 < old(capacity))
      ensures old(Valid()) && r == 0 ==> Content() == CStr(s) && length == |CStr(s)| + 1
      ensures old(Valid()) && r != 0 ==> Content() == "" && length == 0
    {
      r, err := CopyL(s, NulIndex(s) + 1, allocFails);
    }

    /** estr_copy_char (lib/estr.c:316-321): copyl of `c` as a two-character string. */
    method CopyChar(c: char, allocFails: bool) returns (r: int, err: Errno)
      requires Inv() && Bounded()
      modifies this, buffer
      ensures Inv() && Bounded() && (buffer == old(buffer) || fresh(buffer))
      ensures !old(Valid()) ==> r == -1 && err == EINVAL && Content() == old(Content())
      ensures old(Valid()) ==> (r == 0 <==> !allocFails || 2 < old(capacity))
      ensures old(Valid()) && r == 0 ==> Content() == (if c == NUL then "" else [c]) && length == 2
      ensures old(Valid()) && r != 0 ==> Content() == "" && length == 0
    {
      if c == NUL {
        NulIndexUnique([c, NUL], 0);
      } else {
        CStrOfNoNul([c]);
        assert [c, NUL] == [c] + [NUL];
      }
      r, err := CopyL([c, NUL], 2, allocFails);
    }

    /** The state in which estr_trim_to_size has nothing to do: the
        capacity equals the length, or equals the counter itself. */
    predicate Trimmed()
      reads this
    {
      capacity == length || capacity == length + 1
    }

    /** estr_trim_to_size (lib/estr.c:354-360): unless capacity() already
        equals length(), set the capacity to the counter itself, which grows
        the counter by one to the new region size. */
    method TrimToSize(allocFails: bool) returns (r: int, err: Errno)
      requires Inv()
      modifies this
      ensures Inv() && Content() == old(Content()) && (buffer == old(buffer) || fresh(buffer))
      ensures !old(Valid()) ==> r == -1 && err == EINVAL
      ensures old(Valid()) && old(Trimmed()) ==> r == 0 && err == Zero
      ensures !old(Valid()) || old(Trimmed()) || allocFails ==>
        buffer == old(buffer) && length == old(length) && capacity == old(capacity)
      ensures old(Valid()) && !old(Trimmed()) && allocFails ==> r == -1 && err == ENOMEM
      ensures old(Valid()) && !old(Trimmed()) && !allocFails ==>
        r == 0 && err == Zero && fresh(buffer) && capacity == length == old(length) + 1
      ensures Valid() && r == 0 ==> Trimmed()
    {
      if !Valid() {
        return -1, EINVAL;
      }
      // a valid handle has storage, so its capacity is never 0 here
      if Capacity() == Length() {
        return 0, Zero;
      }
      r, err := SetCapacity(length, allocFails);
    }

    /** estr_erase2 (lib/estr.c:369-379): zero everything from `index` to
        the counter, which then becomes strlen + 1. */
    method Erase2(index: nat) returns (r: int, err: Errno)
      requires Inv() && Bounded()
      modifies this, buffer
      ensures Inv() && Bounded() && buffer == old(buffer) && capacity == old(capacity)
      ensures !old(Valid()) || index >= old(Length()) ==>
        r == -1 && err == EINVAL && length == old(length)
        && (buffer != null ==> buffer[..] == old(buffer[..]))
      ensures old(Valid()) && index < old(Length()) ==>
        r == 0 && err == Zero && Valid()
        && Content() == old(Content())[..Min(index, |old(Content())|)] && length == |Content()| + 1
        && buffer[..] == old(buffer[..index]) + Zeros(old(length) - index) + old(buffer[length..])
    {
      if !Valid() {
        return -1, EINVAL;
      }
      if index >= Length() || length == 0 {
        return -1, EINVAL;
      }
      ghost var before := buffer[..];
      ZeroFill(buffer, index, length - index);
      assert buffer[..][..index] == before[..index];
      CStrAfterResize(before, buffer[..], index, index);
      length := NulIndex(buffer[..]) + 1;
      r, err := 0, Zero;
    }

    /** estr_erase (lib/estr.c:389-399): move the characters after the erased
        run down over it (an overlapping copy, done as memmove), zero the `n`
        characters before the counter, and set the counter to strlen + 1.
        There is no handle check, but length() is 0 on a refused handle. */
    method Erase(index: nat, n: nat) returns (r: int, err: Errno)
      requires Inv() && Bounded()
      modifies this, buffer
      ensures Inv() && Bounded() && buffer == old(buffer) && capacity == old(capacity)
      ensures index + n >= old(Length()) || old(length) == 0 ==>
        r == -1 && err == EINVAL && length == old(length)
        && (buffer != null ==> buffer[..] == old(buffer[..]))
      ensures index + n < old(Length()) && old(length) != 0 ==>
        r == 0 && err == Zero && Valid() && length == |Content()| + 1
        && buffer[..] == old(buffer[..index]) + old(buffer[index + n..length]) + Zeros(n) + old(buffer[length..])
        && (index + n <= |old(Content())| ==> Content() == old(Content())[..index] + old(Content())[index + n..])
    {
      if index + n >= Length() || length == 0 {
        return -1, EINVAL;
      }
      EraseRun(buffer, index, n, length);
      length := NulIndex(buffer[..]) + 1;
      r, err := 0, Zero;
    }

    /** estr_insert (lib/estr.c:409-428): save the tail from `index` to the
        counter, zero it and recount as erase2 does, then append `s` and the
        saved tail.  `index` must lie before length(). */
    method Insert(index: nat, s: string, fail1: bool, fail2: bool) returns (r: int, err: Errno)
      requires Inv() && Bounded()
      modifies this, buffer
      ensures Inv() && Bounded() && (buffer == old(buffer) || fresh(buffer))
      ensures !old(Valid()) || index >= old(Length()) ==>
        r == -1 && err == EINVAL && buffer == old(buffer) && length == old(length)
        && capacity == old(capacity) && (buffer != null ==> buffer[..] == old(buffer[..]))
      ensures old(Valid()) && index < old(Length()) ==> r == 0 && Valid()
      ensures old(Valid()) && index < old(Length()) && index <= |old(Content())| && !fail1 && !fail2 ==>
        err == Zero && Content() == old(Content())[..index] + CStr(s) + old(Content())[index..]
      ensures old(Valid()) && |old(Content())| < index < old(Length()) && !fail1 && !fail2 ==>
        err == Zero && Content() == old(Content()) + CStr(s) + CStr(old(buffer[index..length]) + [NUL])
    {
      if !Valid() {
        return -1, EINVAL;
      }
      if index >= Length() || length == 0 {
        return -1, EINVAL;
      }
      // index < length() here, so the source's append-at-the-end branch
      // (lib/estr.c:417-418) cannot be taken
      err := InsertInside(index, s, fail1, fail2);
      r := 0;
    }

    /** The insert before the end (lib/estr.c:419-426): save the tail from
        `index` to the counter, cut the string there, append `s`, then
        append the saved tail read as a C string.  ENOMEM when an append
        fails. */
    method InsertInside(index: nat, s: string, fail1: bool, fail2: bool) returns (err: Errno)
      requires Inv() && Bounded() && Valid() && index < Length()
      modifies this, buffer
      ensures Inv() && Bounded() && Valid() && (buffer == old(buffer) || fresh(buffer))
      ensures err == Zero || err == ENOMEM
      ensures index <= |old(Content())| && !fail1 && !fail2 ==>
        err == Zero && Content() == old(Content())[..index] + CStr(s) + old(Content())[index..]
      ensures |old(Content())| < index && !fail1 && !fail2 ==>
        err == Zero && Content() == old(Content()) + CStr(s) + CStr(old(buffer[index..length]) + [NUL])
    {
      ghost var c := Content();
      // the saved tail keeps its terminator inside its own allocation; the
      // source writes it one past (lib/estr.c:421)
      var tail := buffer[index..length] + [NUL];
      assert tail == old(buffer[index..length]) + [NUL];
      if index <= |c| {
        TailKeeps(buffer[..], index, length);
      }
      var _, _ := Erase2(index);
      ghost var cut := Content();
      assert cut == c[..Min(index, |c|)];
      assert index > |c| ==> cut == c;
      var r1, e1 := Append(s, fail1);
      ghost var mid := Content();
      assert !fail1 ==> mid == cut + CStr(s);
      var r2, e2 := Append(tail, fail2);
      assert !fail2 ==> Content() == mid + CStr(tail);
      err := if e1 == ENOMEM || e2 == ENOMEM then ENOMEM else Zero;
    }

    /** The loop shared by estr_tolower and estr_toupper (lib/estr.c:535-554):
        map each of the first `length` characters in place, terminator and
        anything after it included. */
    method CaseMap(upper: bool) returns (err: Errno)
      requires Inv() && Bounded()
      modifies buffer
      ensures Inv()
      ensures !Valid() ==> err == EINVAL && (buffer != null ==> buffer[..] == old(buffer[..]))
      ensures Valid() ==>
        err == Zero
        && (forall i :: 0 <= i < length ==>
              buffer[i] == (if upper then ToUpperChar(old(buffer[i])) else ToLowerChar(old(buffer[i]))))
        && (forall i :: length <= i < buffer.Length ==> buffer[i] == old(buffer[i]))
        && Content() == (if upper then ToUpperStr(old(Content())) else ToLowerStr(old(Content())))
    {
      if !Valid() {
        return EINVAL;
      }
      ghost var before := buffer[..];
      var i := 0;
      while i < length
        invariant i <= length
        invariant forall j :: 0 <= j < i ==> buffer[j] == (if upper then ToUpperChar(before[j]) else ToLowerChar(before[j]))
        invariant forall j :: i <= j < buffer.Length ==> buffer[j] == before[j]
      {
        buffer[i] := if upper then ToUpperChar(buffer[i]) else ToLowerChar(buffer[i]);
        i := i + 1;
      }
      CaseMapRegion(before, buffer[..], length, upper);
      err := Zero;
    }

    /** estr_tolower (lib/estr.c:535-543). */
    method ToLower() returns (err: Errno)
      requires Inv() && Bounded()
      modifies buffer
      ensures Inv()
      ensures !Valid() ==> err == EINVAL && (buffer != null ==> buffer[..] == old(buffer[..]))
      ensures Valid() ==> err == Zero && Content() == ToLowerStr(old(Content()))
    {
      err := CaseMap(false);
    }

    /** estr_toupper (lib/estr.c:546-554). */
    method ToUpper() returns (err: Errno)
      requires Inv() && Bounded()
      modifies buffer
      ensures Inv()
      ensures !Valid() ==> err == EINVAL && (buffer != null ==> buffer[..] == old(buffer[..]))
      ensures Valid() ==> err == Zero && Content() == ToUpperStr(old(Content()))
    {
      err := CaseMap(true);
    }

    /** estr_count (lib/estr.c:618-625): how many of the first `length`
        characters equal `c`.  The scan runs to the counter, so it takes in
        the terminator and what lies between it and the counter.  A refused
        handle gives (size_t) -1. */
    method Count(c: char) returns (r: int, err: Errno)
      requires Inv() && Bounded()
      ensures !Valid() ==> r == SIZE_MAX && err == EINVAL
      ensures Valid() ==> err == Zero && r == Occurrences(buffer[..length], c)
      ensures Valid() && c != NUL ==> r >= Occurrences(Content(), c)
      ensures Valid() && c != NUL && length == |Content()| + 1 ==> r == Occurrences(Content(), c)
      ensures Valid() && c == NUL && length > 0 ==> r >= 1
    {
      if !Valid() {
        return SIZE_MAX, EINVAL;
      }
      var n := 0;
      var i := 0;
      while i < length
        invariant i <= length && n == multiset(buffer[..i])[c]
      {
        assert buffer[..i + 1] == buffer[..i] + [buffer[i]];
        if buffer[i] == c {
          n := n + 1;
        }
        i := i + 1;
      }
      assert buffer[..length] == buffer[..][..length];
      CountRegion(buffer[..], length, c);
      r, err := n, Zero;
    }

    /** estr_isint (lib/estr.c:634-643) as written: after an optional '-',
        every character up to the counter must be a digit.  The scan reaches
        the terminator whenever the counter is non-zero, so only a cleared
        object passes, and its string "" is no int. */
    method IsInt() returns (r: bool, err: Errno)
      requires Inv()
      ensures err == (if Valid() then Zero else EINVAL)
      ensures r <==> Valid() && length == 0
      ensures r ==> Content() == "" && !Text.IsInt(Content())
      ensures Valid() && Content() != "" ==> !r
    {
      if !Valid() {
        return false, EINVAL;
      }
      err := Zero;
      ghost var k := NulIndex(buffer[..]);
      var off := if buffer[0] == '-' then 1 else 0;
      var i := off;
      while i < length
        invariant off <= i <= k
        invariant forall j :: off <= j < i ==> IsDigit(buffer[j])
      {
        if !IsDigit(buffer[i]) {
          return false, Zero;
        }
        i := i + 1;
      }
      r := true;
    }

    /** estr_indexof (lib/estr.c:601-609): strstr on the string, as an offset;
        -1 for a refused handle, a NULL needle or no occurrence. */
    function IndexOf(needle: Option<string>): (r: int)
      reads this, buffer
      requires Inv()
      ensures r >= -1
      ensures r >= 0 ==>
        Valid() && needle.Some? && MatchAt(Content(), CStr(needle.value), r)
        && forall j :: 0 <= j < r ==> !MatchAt(Content(), CStr(needle.value), j)
      ensures r == -1 <==>
        !Valid() || needle.None? || forall j :: 0 <= j <= |Content()| ==> !MatchAt(Content(), CStr(needle.value), j)
    {
      if !Valid() || needle.None? then -1
      else
        match Text.IndexOf(Content(), CStr(needle.value))
        case Some(k) => k
        case None => -1
    }

    /** estr_substring (lib/estr.c:564-570): the bounds are checked against
        length(), then strndup copies at most `len` characters from `begin`. */
    function Substring(begin: nat, len: nat): (r: Option<string>)
      reads this, buffer
      requires Inv() && Bounded()
      ensures r.Some? <==> Valid() && begin + len <= Length()
      ensures r.Some? ==> |r.value| <= len && NoNul(r.value)
      ensures r.Some? && begin + len <= |Content()| ==> r.value == RawSubstring(Content(), begin, len)
      ensures r.Some? && begin <= |Content()| < begin + len ==> r.value == Content()[begin..]
      ensures r.Some? && |Content()| < begin ==> r.value == CStr(buffer[begin..begin + len])
    {
      if !Valid() then None
      else if Length() < begin || Length() < begin + len then None
      else
        WindowOfRegion(buffer[..], begin, len);
        Some(CStr(buffer[begin..begin + len]))
    }

    /** estr_startswith (lib/estr.c:814-821): strncmp of the prefix against
        the start of the region; NULL is refused. */
    function StartsWith(prefix: Option<string>): (r: bool)
      reads this, buffer
      requires Inv() && Bounded()
      ensures r <==> Valid() && prefix.Some? && Text.StartsWith(Content(), CStr(prefix.value))
    {
      if !Valid() || prefix.None? then false
      else
        var p := CStr(prefix.value);
        if length < |p| then false
        else
          StrNEqNoNul(prefix.value, buffer[..], |p|);
          PrefixOfRegion(buffer[..], p);
          StrNEq(prefix.value, buffer[..], |p|)
    }

    /** estr_endswith (lib/estr.c:830-837) as written: the suffix is compared
        with the characters that end at the counter.  The counter counts the
        terminator, so when it is strlen + 1 the window ends with the
        terminator and no non-empty suffix matches. */
    function EndsWith(suffix: string): (r: bool)
      reads this, buffer
      requires Inv() && Bounded()
      ensures r ==> Valid()
      ensures Valid() && |CStr(suffix)| <= length ==>
        (r <==> buffer[length - |CStr(suffix)|..length] == CStr(suffix))
      ensures Valid() && length == |Content()| + 1 && CStr(suffix) != [] ==> !r
      ensures Valid() && |CStr(suffix)| > length ==> !r
    {
      if !Valid() then false
      else
        var x := CStr(suffix);
        if |x| > length then false
        else
          var w := buffer[length - |x|..];
          StrNEqNoNul(w, suffix, |x|);
          assert w[..|x|] == buffer[length - |x|..length];
          StrNEq(w, suffix, |x|)
    }

    /** `scratch` is a separate object with intact tags and storage of its
        own, in a state the operations accept. */
    ghost predicate Scratch(scratch: EStr)
      reads this, scratch, scratch.buffer
    {
      scratch != this && scratch.sm == SMAGIC && scratch.em == EMAGIC
      && (scratch.buffer == null || scratch.buffer != buffer)
      && scratch.Inv() && scratch.Bounded()
    }

    /** estr_vprintf (lib/estr.c:455-528): clear the object, then scan the
        format up to its terminator and append each piece as it is
        recognised.  `%X` goes through a scratch object made by estr_new. */
    method VPrintf(fmt: string, args: seq<Arg>) returns (r: int)
      requires Inv() && Bounded() && Render(fmt, args).Ok?
      modifies this, buffer
      ensures Inv() && Bounded() && (buffer == old(buffer) || fresh(buffer))
      ensures !old(Valid()) ==>
        r == -1 && buffer == old(buffer) && length == old(length) && capacity == old(capacity)
        && (buffer != null ==> buffer[..] == old(buffer[..]))
      ensures old(Valid()) ==> r == 0 && Valid() && Content() == Render(fmt, args).value
    {
      if !Valid() {
        return -1;
      }
      var scratch := new EStr.New();
      var _ := Clear();
      var f := CStr(fmt);
      var p := 0;
      var rest := args;
      while p < |f|
        invariant Inv() && Bounded() && Valid() && (buffer == old(buffer) || fresh(buffer))
        invariant fresh(scratch) && Scratch(scratch)
        invariant scratch.buffer == null || fresh(scratch.buffer)
        invariant p <= |f| && RenderFrom(f, p, rest).Ok?
        invariant Content() + RenderFrom(f, p, rest).value == Render(fmt, args).value
        decreases |f| - p
      {
        ghost var before := Content();
        ghost var piece := Step(f, p, rest).value;
        RenderStep(f, p, rest, piece);
        p, rest := AppendPiece(f, p, rest, scratch);
        ghost var now := Content();
        MoveAcross(before, piece.text, RenderFrom(f, p, rest).value, now, Render(fmt, args).value);
      }
      r := 0;
    }

    /** One pass of the scan loop of estr_vprintf (lib/estr.c:465-524): a
        directive, or one character appended as it is. */
    method AppendPiece(f: string, p: nat, args: seq<Arg>, scratch: EStr) returns (next: nat, rest: seq<Arg>)
      requires Inv() && Bounded() && Valid() && NoNul(f) && p < |f| && Step(f, p, args).Ok?
      requires Scratch(scratch)
      modifies this, buffer, scratch, scratch.buffer
      ensures Inv() && Bounded() && Valid() && (buffer == old(buffer) || fresh(buffer))
      ensures Scratch(scratch) && (scratch.buffer == old(scratch.buffer) || fresh(scratch.buffer))
      ensures next == Step(f, p, args).value.next && rest == Step(f, p, args).value.rest
      ensures Content() == old(Content()) + Step(f, p, args).value.text
    {
      if f[p] == '%' {
        next, rest := AppendDirective(f, p, args, scratch);
      } else {
        var _, _ := AppendChar(f[p], false);
        next, rest := p + 1, args;
      }
    }

    /** One '%' directive of estr_vprintf (lib/estr.c:466-519): "0x" for '#',
        the width quirk's repeated digit, then the conversion. */
    method AppendDirective(f: string, p: nat, args: seq<Arg>, scratch: EStr) returns (next: nat, rest: seq<Arg>)
      requires Inv() && Bounded() && Valid() && NoNul(f) && p < |f| && f[p] == '%' && Step(f, p, args).Ok?
      requires Scratch(scratch)
      modifies this, buffer, scratch, scratch.buffer
      ensures Inv() && Bounded() && Valid() && (buffer == old(buffer) || fresh(buffer))
      ensures Scratch(scratch) && (scratch.buffer == old(scratch.buffer) || fresh(scratch.buffer))
      ensures next == Step(f, p, args).value.next && rest == Step(f, p, args).value.rest
      ensures Content() == old(Content()) + Step(f, p, args).value.text
    {
      ghost var hash, j, quirk, k0 := DirectiveParts(f, p, args);
      ghost var start := Content();
      var k := AppendFlags(f, p);
      ghost var afterFlags := Content();
      ghost var flags: string := (if hash then "0x" else "") + (if quirk then Repeat(At(f, j), At(f, j) as int + 1 - '0' as int) else []);
      assert k == k0 && afterFlags == start + flags;
      rest := AppendConversion(f[k], args, scratch);
      ghost var final := Content();
      AppendTwo(start, flags, Conversion(f[k], args).value.0, afterFlags, final);
      next := k + 1;
    }

    /** The part of a directive before its conversion character
        (lib/estr.c:467-478): "0x" for '#', then the width quirk's repeated
        digit; the result is the position of the conversion character. */
    method AppendFlags(f: string, p: nat) returns (k: nat)
      requires Inv() && Bounded() && Valid() && NoNul(f) && p < |f| && f[p] == '%'
      modifies this, buffer
      ensures Inv() && Bounded() && Valid() && (buffer == old(buffer) || fresh(buffer))
      ensures var hash := At(f, p + 1) == '#';
        var j := if hash then p + 2 else p + 1;
        var d := At(f, j);
        k == (if WidthQuirk(d) then j + 2 else j)
        && Content() == old(Content()) + ((if hash then "0x" else "") + (if WidthQuirk(d) then Repeat(d, d as int + 1 - '0' as int) else []))
    {
      ghost var start := Content();
      var j := p + 1;
      if At(f, j) == '#' {
        AppendText("0x");
        j := j + 1;
      }
      ghost var afterHash := Content();
      k := j;
      var d := At(f, j);
      if WidthQuirk(d) {
        AppendRepeated(d, d as int + 1 - '0' as int);
        k := j + 2;
      }
    }

    /** The switch of estr_vprintf (lib/estr.c:479-519).  A negative %d or %i
        appends '-' and then the magnitude; %X converts into the scratch
        object, upper-cases it there and appends that object. */
    method AppendConversion(conv: char, args: seq<Arg>, scratch: EStr) returns (rest: seq<Arg>)
      requires Inv() && Bounded() && Valid() && conv != NUL && Conversion(conv, args).Ok?
      requires Scratch(scratch)
      modifies this, buffer, scratch, scratch.buffer
      ensures Inv() && Bounded() && Valid() && (buffer == old(buffer) || fresh(buffer))
      ensures Scratch(scratch) && (scratch.buffer == old(scratch.buffer) || fresh(scratch.buffer))
      ensures rest == Conversion(conv, args).value.1
      ensures Content() == old(Content()) + Conversion(conv, args).value.0
    {
      rest := Conversion(conv, args).value.1;
      if conv == 'c' {
        var _, _ := AppendChar(CharArg(args[0]), false);
      } else if conv == 's' {
        var _, _ := Append(args[0].s, false);
      } else if conv == 'X' {
        AppendUpperHex(IntArg(args[0]), scratch);
      } else if IsIntConversion(conv) {
        AppendInt(conv, IntArg(args[0]));
      } else {
        // '%' and any unrecognised conversion character are appended as they are
        var _, _ := AppendChar(conv, false);
      }
    }

    /** The integer conversions other than %X (lib/estr.c:486-504). */
    method AppendInt(conv: char, v: i32)
      requires Inv() && Bounded() && Valid() && IsIntConversion(conv) && conv != 'X'
      requires IntText(conv, v).Ok?
      modifies this, buffer
      ensures Inv() && Bounded() && Valid() && (buffer == old(buffer) || fresh(buffer))
      ensures Content() == old(Content()) + IntText(conv, v).value
    {
      if conv == 'd' || conv == 'i' {
        if v < 0 {
          AppendText("-");
          var digits := Convert(-(v as int), 10);
          ConvertNoNul(-(v as int), 10);
          AppendText(digits);
        } else {
          ConvertNoNul(v as int, 10);
          AppendText(Convert(v as int, 10));
        }
      } else {
        var base := if conv == 'u' then 10 else if conv == 'o' then 8 else 16;
        ConvertNoNul(AsUnsigned(v), base);
        AppendText(Convert(AsUnsigned(v), base));
      }
    }

    /** %X (lib/estr.c:507-512): the scratch object holds the upper-cased
        digits, then it is appended. */
    method AppendUpperHex(v: i32, scratch: EStr)
      requires Inv() && Bounded() && Valid() && Scratch(scratch)
      modifies this, buffer, scratch, scratch.buffer
      ensures Inv() && Bounded() && Valid() && (buffer == old(buffer) || fresh(buffer))
      ensures Scratch(scratch) && (scratch.buffer == old(scratch.buffer) || fresh(scratch.buffer))
      ensures Content() == old(Content()) + ToUpperStr(Convert(AsULong(v), 16))
    {
      var digits := Convert(AsULong(v), 16);
      ConvertNoNul(AsULong(v), 16);
      scratch.UpperHex(digits);
      var _, _ := AppendS(scratch, false);
    }

    /** What %X does to the scratch object (lib/estr.c:508-510): clear it
        (refused while it has no storage), append the digits, and upper-case
        them in place. */
    method UpperHex(digits: string)
      requires Inv() && Bounded() && sm == SMAGIC && em == EMAGIC && NoNul(digits)
      modifies this, buffer
      ensures Inv() && Bounded() && Valid() && (buffer == old(buffer) || fresh(buffer))
      ensures Content() == ToUpperStr(digits)
    {
      CStrOfNoNul(digits);
      var _ := Clear();
      assert Content() == "";
      var _, _ := Append(digits, false);
      assert Valid() && Content() == digits;
      var _ := ToUpper();
    }

    /** The width quirk's loop (lib/estr.c:475-476): append `c`, `count` times. */
    method AppendRepeated(c: char, count: nat)
      requires Inv() && Bounded() && Valid() && c != NUL
      modifies this, buffer
      ensures Inv() && Bounded() && Valid() && (buffer == old(buffer) || fresh(buffer))
      ensures Content() == old(Content()) + Repeat(c, count)
    {
      var idx := 0;
      while idx < count
        invariant Inv() && Bounded() && Valid() && (buffer == old(buffer) || fresh(buffer))
        invariant idx <= count && Content() == old(Content()) + Repeat(c, idx)
      {
        var _, _ := AppendChar(c, false);
        assert Repeat(c, idx) + [c] == Repeat(c, idx + 1);
        idx := idx + 1;
      }
    }

    /** An append that cannot fail, of text without a NUL. */
    method AppendText(t: string)
      requires Inv() && Bounded() && Valid() && NoNul(t)
      modifies this, buffer
      ensures Inv() && Bounded() && Valid() && (buffer == old(buffer) || fresh(buffer))
      ensures Content() == old(Content()) + t
    {
      CStrOfNoNul(t);
      var _, _ := Append(t, false);
    }
  }
}

=== FILE: estrbuffer.dfy ===
/**
 * estrbuffer (lib/estrbuffer.c): a growable character buffer that keeps a
 * C string in a heap region `str` of `alength` characters, together with a
 * `length` counter.
 *
 * The counter is not kept equal to the string's length by every operation:
 * an append that grows the region sets it to the new region size
 * (lib/estrbuffer.c:210) and set_capacity leaves it alone.  What every
 * operation does keep is the invariant `Inv`: the region is `alength`
 * characters long and holds a terminator, and the counter is at least the
 * string's length.
 */
module EStrBuffer {
  import opened CStrings
  import opened Text
  import opened Format

  /** The in-place test of estrbuffer_append as written (lib/estrbuffer.c:204):
      the string already in use plus the new one may fill the whole region. */
  predicate InPlaceAsWritten(used: nat, slen: nat, alength: nat)
  {
    used + slen <= alength
  }

  /** The in-place test the append needs: room for the new characters and the
      terminator that strncat writes after them. */
  predicate InPlace(used: nat, slen: nat, alength: nat)
  {
    used + slen < alength
  }

  /** The two tests disagree exactly when the terminator would be written at
      index `alength`, one past the end of the region. */
  lemma InPlaceAsWrittenOverflows(used: nat, slen: nat, alength: nat)
    ensures InPlaceAsWritten(used, slen, alength) && !InPlace(used, slen, alength)
        <==> used + slen == alength
    ensures InPlace(used, slen, alength) ==> InPlaceAsWritten(used, slen, alength)
  {
  }

  /** A new buffer has a two-character region holding "", and appending "ab"
      passes the written test although the terminator lands at index 2. */
  lemma NewBufferAppendOverflows()
    ensures InPlaceAsWritten(0, |CStr("ab")|, 2)
    ensures !InPlace(0, |CStr("ab")|, 2)
  {
    CStrOfNoNul("ab");
  }

  /** `abs(alength - (length + slen)) + 1`, the growth of estrbuffer_append. */
  function GrowBy(alength: nat, length: nat, slen: nat): (d: nat)
    ensures d >= 1
    ensures alength <= length + slen ==> alength + d == length + slen + 1
  {
    (if alength >= length + slen then alength - (length + slen) else length + slen - alength) + 1
  }

  class Buffer {
    var str: array<char>
    var length: nat
    var alength: nat

    /** The region is `alength` characters and holds a terminator; the counter
        is never below the string's length. */
    ghost predicate Inv()
      reads this, str
    {
      str.Length == alength >= 1 && HasNul(str[..]) && NulIndex(str[..]) <= length
    }

    /** estrbuffer_to_str: the C string in the region (lib/estrbuffer.c:110-114). */
    function ToStr(): (s: string)
      reads this, str
      requires Inv()
      ensures NoNul(s) && |s| < alength && |s| <= length
    {
      CStr(str[..])
    }

    /** estrbuffer_new (lib/estrbuffer.c:60-72): the zeroed record has no
        region, so set_capacity(1) allocates two characters and the first is
        cleared. */
    constructor ()
      ensures Inv() && ToStr() == "" && length == 0 && alength == 2 && fresh(str)
    {
      var a := new char[2];
      a[1] := NUL;
      a[0] := NUL;
      str := a;
      length := 0;
      alength := 2;
      new;
      CStrPrefixed([], [NUL]);
      assert a[..] == [] + [NUL] + [NUL];
    }

    /** estrbuffer_length (lib/estrbuffer.c:122-126). */
    function Length(): (n: nat)
      reads this, str
      requires Inv()
      ensures |ToStr()| <= n
    {
      length
    }

    /** estrbuffer_capacity (lib/estrbuffer.c:134-138): the region size less
        the terminator. */
    function Capacity(): (n: nat)
      reads this, str
      requires Inv()
      ensures n + 1 == str.Length && |ToStr()| <= n
    {
      // the source's zero-size case cannot arise: every region holds a terminator
      alength - 1
    }

    /** estrbuffer_set_capacity (lib/estrbuffer.c:148-163): reallocate to
        `capacity` characters plus a terminator.  The string is cut to fit; the
        counter is not touched. */
    method SetCapacity(capacity: nat, allocFails: bool) returns (r: int)
      requires Inv()
      modifies this
      ensures Inv() && length == old(length)
      ensures old(alength) - 1 == capacity || allocFails ==>
        r == (if old(alength) - 1 == capacity then 0 else -1)
        && str == old(str) && alength == old(alength) && ToStr() == old(ToStr())
      ensures old(alength) - 1 != capacity && !allocFails ==>
        r == 0 && fresh(str) && alength == capacity + 1
        && ToStr() == old(ToStr())[..Min(|old(ToStr())|, capacity)]
    {
      if alength - 1 == capacity {
        return 0;
      }
      if allocFails {
        return -1;
      }
      ghost var before := str[..];
      var tmp := Realloc(str, capacity + 1);
      ghost var m := Min(capacity, alength);
      assert tmp[..m] == before[..m] by {
        assert tmp[..Min(capacity + 1, alength)][..m] == before[..Min(capacity + 1, alength)][..m];
      }
      tmp[capacity] := NUL;
      CStrAfterResize(before, tmp[..], m, capacity);
      alength := capacity + 1;
      str := tmp;
      r := 0;
    }

    /** estrbuffer_clear (lib/estrbuffer.c:97-102): zero the first `length`
        characters and reset the counter. */
    method Clear()
      requires Inv() && length <= alength
      modifies this, str
      ensures Inv() && str == old(str) && alength == old(alength)
      ensures length == 0 && ToStr() == ""
        && str[..] == Zeros(old(length)) + old(str[length..])
    {
      ghost var before := str[..];
      ZeroFill(str, 0, length);
      if length > 0 {
        NulIndexUnique(str[..], 0);
      } else {
        assert str[..] == before;
      }
      length := 0;
    }

    /** estrbuffer_append (lib/estrbuffer.c:186-222): append the C string
        `s`; a NULL `s` is refused.  The string is written in place when it
        fits with its terminator; otherwise the region grows and the counter
        becomes the new region size. */
    method Append(s: Option<string>, allocFails: bool) returns (r: int)
      requires Inv()
      modifies this, str
      ensures Inv() && (str == old(str) || fresh(str))
      ensures s.None? ==>
        r == -1 && str == old(str) && str[..] == old(str[..])
        && length == old(length) && alength == old(alength)
      ensures s.Some? && InPlace(|old(ToStr())|, |CStr(s.value)|, old(alength)) ==>
        r == 0 && ToStr() == old(ToStr()) + CStr(s.value)
        && str == old(str) && alength == old(alength) && length == old(length) + |CStr(s.value)|
      ensures s.Some? && !InPlace(|old(ToStr())|, |CStr(s.value)|, old(alength)) && !allocFails ==>
        r == 0 && ToStr() == old(ToStr()) + CStr(s.value)
        && fresh(str) && alength == old(length) + |CStr(s.value)| + 1 && length == alength
      ensures s.Some? && !InPlace(|old(ToStr())|, |CStr(s.value)|, old(alength)) && allocFails ==>
        r == -1 && ToStr() == old(ToStr())
        && str == old(str) && alength == old(alength) && length == alength - 1
    {
      if s.None? {
        return -1;
      }
      var src := CStr(s.value);
      var slen := |src|;
      var used := NulIndex(str[..]);
      ghost var before := str[..];
      assert before[..used] == old(ToStr());
      if InPlace(used, slen, alength) {
        length := length + slen;
        StrCat(str, used, src);
      } else {
        var diff := GrowBy(alength, length, slen);
        if allocFails {
          length := alength - 1;
          return -1;
        }
        var tmp := Realloc(str, alength + diff);
        assert tmp[..used] == before[..used] by {
          assert tmp[..alength][..used] == before[..alength][..used];
        }
        StrCat(tmp, used, src);
        alength := alength + diff;
        length := alength;
        str := tmp;
      }
      r := 0;
    }

    /** estrbuffer_append_char (lib/estrbuffer.c:172-177): append `c` as a
        one-character string; a NUL appends nothing. */
    method AppendChar(c: char, allocFails: bool) returns (r: int)
      requires Inv()
      modifies this, str
      ensures Inv() && (str == old(str) || fresh(str))
      ensures c == NUL ==> r == 0 && ToStr() == old(ToStr())
      ensures r == 0 <==> !allocFails || InPlace(|old(ToStr())|, |CStr([c, NUL])|, old(alength))
      ensures r == 0 ==> ToStr() == old(ToStr()) + (if c == NUL then "" else [c])
      ensures InPlace(|old(ToStr())|, |CStr([c, NUL])|, old(alength)) ==>
        str == old(str) && alength == old(alength) && length == old(length) + |CStr([c, NUL])|
      ensures r == 0 && !InPlace(|old(ToStr())|, |CStr([c, NUL])|, old(alength)) ==>
        fresh(str) && alength == old(length) + |CStr([c, NUL])| + 1 && length == alength
      ensures r != 0 ==>
        ToStr() == old(ToStr()) && str == old(str) && alength == old(alength) && length == alength - 1
    {
      if c == NUL {
        NulIndexUnique([c, NUL], 0);
      } else {
        CStrOfNoNul([c]);
        assert [c, NUL] == [c] + [NUL];
      }
      r := Append(Some([c, NUL]), allocFails);
    }

    /** estrbuffer_copy (lib/estrbuffer.c:245-250): clear, then append. */
    method Copy(s: Option<string>, allocFails: bool) returns (r: int)
      requires Inv() && length <= alength
      modifies this, str
      ensures Inv() && (str == old(str) || fresh(str))
      ensures s.None? ==> r == -1 && ToStr() == "" && str == old(str) && alength == old(alength) && length == 0
      ensures s.Some? ==> (r == 0 <==> !allocFails || InPlace(0, |CStr(s.value)|, old(alength)))
      ensures r == 0 ==> s.Some? && ToStr() == CStr(s.value)
      ensures s.Some? && InPlace(0, |CStr(s.value)|, old(alength)) ==>
        str == old(str) && alength == old(alength) && length == |CStr(s.value)|
      ensures s.Some? && r == 0 && !InPlace(0, |CStr(s.value)|, old(alength)) ==>
        fresh(str) && alength == |CStr(s.value)| + 1 && length == alength
      ensures s.Some? && r != 0 ==>
        ToStr() == "" && str == old(str) && alength == old(alength) && length == alength - 1
    {
      Clear();
      r := Append(s, allocFails);
    }

    /** estrbuffer_copy_char (lib/estrbuffer.c:231-236). */
    method CopyChar(c: char, allocFails: bool) returns (r: int)
      requires Inv() && length <= alength
      modifies this, str
      ensures Inv() && (str == old(str) || fresh(str))
      ensures r == 0 <==> !allocFails || InPlace(0, |CStr([c, NUL])|, old(alength))
      ensures r == 0 ==> ToStr() == (if c == NUL then "" else [c])
      ensures InPlace(0, |CStr([c, NUL])|, old(alength)) ==>
        str == old(str) && alength == old(alength) && length == |CStr([c, NUL])|
      ensures r == 0 && !InPlace(0, |CStr([c, NUL])|, old(alength)) ==>
        fresh(str) && alength == |CStr([c, NUL])| + 1 && length == alength
      ensures r != 0 ==> ToStr() == "" && str == old(str) && alength == old(alength) && length == alength - 1
    {
      Clear();
      r := AppendChar(c, allocFails);
    }

    /** estrbuffer_trim_to_size (lib/estrbuffer.c:258-265): unless the region
        already matches the counter, reset the counter to the string's length
        and shrink the region to it. */
    method TrimToSize(allocFails: bool) returns (r: int)
      requires Inv()
      modifies this
      ensures Inv() && ToStr() == old(ToStr())
      ensures old(alength) - 1 == old(length) ==>
        r == 0 && str == old(str) && length == old(length) && alength == old(alength)
      ensures old(alength) - 1 != old(length) ==>
        length == |ToStr()|
        && (r == 0 <==> !allocFails || old(alength) - 1 == |old(ToStr())|)
        && (r == 0 ==> alength == length + 1)
        && (r != 0 ==> str == old(str) && alength == old(alength))
    {
      // the region is never NULL and never empty, so the first two early returns cannot fire
      if alength - 1 == length {
        return 0;
      }
      length := NulIndex(str[..]);
      r := SetCapacity(length, allocFails);
    }

    /** estrbuffer_erase2 (lib/estrbuffer.c:274-281): zero everything from
        `index` to the counter, which then becomes the string's length. */
    method Erase2(index: nat) returns (r: int)
      requires Inv() && length <= alength
      modifies this, str
      ensures Inv() && str == old(str) && alength == old(alength)
      ensures index > old(length) || old(length) == 0 ==>
        r == -1 && str[..] == old(str[..]) && length == old(length)
      ensures index <= old(length) && old(length) != 0 ==>
        r == 0 && ToStr() == old(ToStr())[..Min(index, |old(ToStr())|)] && length == |ToStr()|
        && str[..] == old(str[..index]) + Zeros(old(length) - index) + old(str[length..])
    {
      if index > length || length == 0 {
        return -1;
      }
      ghost var before := str[..];
      ZeroFill(str, index, length - index);
      if index < length {
        assert str[..][..index] == before[..index];
        CStrAfterResize(before, str[..], index, index);
      } else {
        assert str[..] == before;
      }
      length := NulIndex(str[..]);
      r := 0;
    }

    /** estrbuffer_erase (lib/estrbuffer.c:291-299): move the characters after
        the erased run down over it (an overlapping copy, done as memmove),
        zero the `n` characters before the counter, and reset the counter to
        the string's length. */
    method Erase(index: nat, n: nat) returns (r: int)
      requires Inv() && length <= alength
      modifies this, str
      ensures Inv() && str == old(str) && alength == old(alength)
      ensures index + n > old(length) || old(length) == 0 ==>
        r == -1 && str[..] == old(str[..]) && length == old(length)
      ensures index + n <= old(length) && old(length) != 0 ==>
        r == 0 && length == |ToStr()|
        && str[..] == old(str[..index]) + old(str[index + n..length]) + Zeros(n) + old(str[length..])
        && (index + n <= |old(ToStr())| ==> ToStr() == old(ToStr())[..index] + old(ToStr())[index + n..])
    {
      if index + n > length || length == 0 {
        return -1;
      }
      EraseRun(str, index, n, length);
      length := NulIndex(str[..]);
      r := 0;
    }

    /** estrbuffer_insert (lib/estrbuffer.c:309-325): at the counter this is
        an append; before it, the tail from `index` to the counter is saved,
        zeroed, and appended back after `s`.  An empty counter refuses. */
    method Insert(index: nat, s: Option<string>, fail1: bool, fail2: bool) returns (r: int)
      requires Inv() && length <= alength
      modifies this, str
      ensures Inv() && (str == old(str) || fresh(str))
      ensures index > old(length) || old(length) == 0 ==>
        r == -1 && str == old(str) && str[..] == old(str[..])
        && length == old(length) && alength == old(alength)
      ensures index == old(length) > 0 && s.None? ==> r == -1 && ToStr() == old(ToStr())
      ensures index == old(length) > 0 && s.Some? ==>
        (r == 0 <==> !fail1 || InPlace(|old(ToStr())|, |CStr(s.value)|, old(alength)))
        && (r == 0 ==> ToStr() == old(ToStr()) + CStr(s.value))
        && (r != 0 ==> ToStr() == old(ToStr()) && str == old(str) && alength == old(alength))
      ensures index < old(length) ==> r == 0
      ensures index < old(length) && index <= |old(ToStr())| && !fail1 && !fail2 ==>
        ToStr() == old(ToStr())[..index] + (if s.Some? then CStr(s.value) else "") + old(ToStr())[index..]
      ensures |old(ToStr())| < index < old(length) && !fail1 && !fail2 ==>
        ToStr() == old(ToStr()) + (if s.Some? then CStr(s.value) else "") + CStr(old(str[index..length]) + [NUL])
    {
      if index > length || length == 0 {
        return -1;
      }
      if index == length {
        r := Append(s, fail1);
        return;
      }
      InsertInside(index, s, fail1, fail2);
      r := 0;
    }

    /** The insert before the counter (lib/estrbuffer.c:317-324): save the
        tail from `index` to the counter, cut the string there, append `s`,
        then append the saved tail read as a C string. */
    method InsertInside(index: nat, s: Option<string>, fail1: bool, fail2: bool)
      requires Inv() && length <= alength && index < length
      modifies this, str
      ensures Inv() && (str == old(str) || fresh(str))
      ensures index <= |old(ToStr())| && !fail1 && !fail2 ==>
        ToStr() == old(ToStr())[..index] + (if s.Some? then CStr(s.value) else "") + old(ToStr())[index..]
      ensures |old(ToStr())| < index && !fail1 && !fail2 ==>
        ToStr() == old(ToStr()) + (if s.Some? then CStr(s.value) else "") + CStr(old(str[index..length]) + [NUL])
    {
      ghost var c := ToStr();
      // the saved tail carries its terminator inside its own allocation
      var tail := str[index..length] + [NUL];
      assert tail == old(str[index..length]) + [NUL];
      if index <= |c| {
        TailKeeps(str[..], index, length);
      }
      // zeroing from `index` to the counter and recounting is exactly erase2
      var _ := Erase2(index);
      ghost var cut := ToStr();
      assert cut == c[..Min(index, |c|)];
      assert index > |c| ==> cut == c;
      var _ := Append(s, fail1);
      ghost var mid := ToStr();
      assert !fail1 ==> mid == cut + (if s.Some? then CStr(s.value) else "");
      var _ := Append(Some(tail), fail2);
      assert !fail2 ==> ToStr() == mid + CStr(tail);
    }

    /** estrbuffer_vprintf (lib/estrbuffer.c:352-424): scan the format up to
        its terminator and append each piece as it is recognised.  The buffer
        is not cleared first. */
    method VPrintf(fmt: string, args: seq<Arg>) returns (r: int)
      requires Inv() && Render(fmt, args).Ok?
      modifies this, str
      ensures Inv() && (str == old(str) || fresh(str))
      ensures r == 0 && ToStr() == old(ToStr()) + Render(fmt, args).value
    {
      var f := CStr(fmt);
      var p := 0;
      var rest := args;
      while p < |f|
        invariant Inv() && (str == old(str) || fresh(str))
        invariant p <= |f| && RenderFrom(f, p, rest).Ok?
        invariant ToStr() + RenderFrom(f, p, rest).value == old(ToStr()) + Render(fmt, args).value
        decreases |f| - p
      {
        ghost var before := ToStr();
        ghost var piece := Step(f, p, rest).value;
        RenderStep(f, p, rest, piece);
        p, rest := AppendPiece(f, p, rest);
        MoveAcross(before, piece.text, RenderFrom(f, p, rest).value, ToStr(), old(ToStr()) + Render(fmt, args).value);
      }
      r := 0;
    }

    /** One pass of the scan: a literal character is copied, a '%' directive
        is expanded. */
    method AppendPiece(f: string, p: nat, args: seq<Arg>) returns (next: nat, rest: seq<Arg>)
      requires Inv() && NoNul(f) && p < |f| && Step(f, p, args).Ok?
      modifies this, str
      ensures Inv() && (str == old(str) || fresh(str))
      ensures next == Step(f, p, args).value.next && rest == Step(f, p, args).value.rest
      ensures ToStr() == old(ToStr()) + Step(f, p, args).value.text
    {
      if f[p] == '%' {
        next, rest := AppendDirective(f, p, args);
      } else {
        AppendText([f[p]]);
        next, rest := p + 1, args;
      }
    }

    /** One '%' directive of estrbuffer_vprintf (lib/estrbuffer.c:363-416):
        "0x" for '#', the width quirk's repeated digit, then the conversion. */
    method AppendDirective(f: string, p: nat, args: seq<Arg>) returns (next: nat, rest: seq<Arg>)
      requires Inv() && NoNul(f) && p < |f| && f[p] == '%' && Step(f, p, args).Ok?
      modifies this, str
      ensures Inv() && (str == old(str) || fresh(str))
      ensures next == Step(f, p, args).value.next && rest == Step(f, p, args).value.rest
      ensures ToStr() == old(ToStr()) + Step(f, p, args).value.text
    {
      ghost var hash, j0, quirk, k0 := DirectiveParts(f, p, args);
      ghost var start := ToStr();
      ghost var hashText: string := if hash then "0x" else "";
      ghost var want := Step(f, p, args).value.text;
      ghost var gpad: string := if quirk then Repeat(At(f, j0), At(f, j0) as int + 1 - '0' as int) else [];
      ghost var gtext := Conversion(f[k0], args).value.0;
      assert want == hashText + gpad + gtext;
      var j := p + 1;
      if At(f, j) == '#' {
        AppendText("0x");
        j := j + 1;
      }
      ghost var afterHash := ToStr();
      assert j == j0 && afterHash == start + hashText;
      var k := j;
      var d := At(f, j);
      ghost var pad: string := if quirk then Repeat(d, d as int + 1 - '0' as int) else [];
      if WidthQuirk(d) {
        AppendRepeated(d, d as int + 1 - '0' as int);
        k := j + 2;
      }
      ghost var afterPad := ToStr();
      assert k == k0 && afterPad == afterHash + pad;
      var conv := f[k];
      var text := Conversion(conv, args).value.0;
      ConversionNoNul(conv, args);
      AppendText(text);
      assert pad == gpad && text == gtext;
      ghost var final := ToStr();
      AppendThree(start, hashText, pad, text, afterHash, afterPad, final);
      next, rest := k + 1, Conversion(conv, args).value.1;
    }

    /** The width quirk's loop (lib/estrbuffer.c:370-371): append `c`, `count` times. */
    method AppendRepeated(c: char, count: nat)
      requires Inv() && c != NUL
      modifies this, str
      ensures Inv() && (str == old(str) || fresh(str))
      ensures ToStr() == old(ToStr()) + Repeat(c, count)
    {
      var idx := 0;
      while idx < count
        invariant Inv() && (str == old(str) || fresh(str))
        invariant idx <= count && ToStr() == old(ToStr()) + Repeat(c, idx)
      {
        AppendText([c]);
        assert Repeat(c, idx) + [c] == Repeat(c, idx + 1);
        idx := idx + 1;
      }
    }

    /** An append that cannot fail, of text without a NUL. */
    method AppendText(t: string)
      requires Inv() && NoNul(t)
      modifies this, str
      ensures Inv() && (str == old(str) || fresh(str))
      ensures ToStr() == old(ToStr()) + t
    {
      CStrOfNoNul(t);
      var _ := Append(Some(t), false);
    }
  }

  /** Appends alone push the counter past the region: the grow branch sets
      the counter to the new region size (lib/estrbuffer.c:210), and the
      next in-place append adds to it (lib/estrbuffer.c:205).  From this
      state estrbuffer_clear would zero 7 characters of a 6-character region. */
  method AppendsPassRegion() returns (b: Buffer)
    ensures b.Inv() && b.ToStr() == "abcxy" && b.length == 7 && b.alength == 6
  {
    b := new Buffer();
    CStrOfNoNul("abc");
    var r := b.Append(Some("abc"), false);
    assert b.ToStr() == "abc" && b.length == b.alength == 4;
    CStrOfNoNul("x");
    r := b.Append(Some("x"), false);
    assert b.ToStr() == "abcx" && b.length == b.alength == 6;
    CStrOfNoNul("y");
    r := b.Append(Some("y"), false);
  }
}

=== FILE: estrtoken.dfy ===
/**
 * The string tokenizer of lib/estrtoken.c: a cursor over a borrowed C
 * string that hands out, one call at a time, the maximal non-empty runs of
 * characters that are not separators.
 *
 * `Next` says what one `estrtoken_next_token` call returns and where it
 * leaves the offset; `Tokens` strings those calls together; `Fields` (a
 * split at every separator, empty fields included) is the independent
 * reference they are proved against.
 */
module EStrToken {
  import opened CStrings
  import Text

  /** estrtoken_split_condition's answer: `c` is one of the characters of
      `sep` before its NUL. */
  predicate IsSep(c: char, sep: string)
  {
    c in CStr(sep)
  }

  predicate NoSep(s: string, sep: string)
  {
    forall i :: 0 <= i < |s| ==> !IsSep(s[i], sep)
  }

  predicate AllSep(s: string, sep: string)
  {
    forall i :: 0 <= i < |s| ==> IsSep(s[i], sep)
  }

  /** estrtoken_split_condition (lib/estrtoken.c:168-173): compare `c` with
      each character of `sep` up to its strlen. */
  method SplitCondition(c: char, sep: string) returns (b: bool)
    ensures b <==> IsSep(c, sep)
  {
    var i := 0;
    while i < NulIndex(sep)
      invariant i <= NulIndex(sep) && c !in CStr(sep)[..i]
    {
      if c == sep[i] {
        return true;
      }
      i := i + 1;
    }
    assert CStr(sep)[..i] == CStr(sep);
    return false;
  }

  // ---------------------------------------------------------------------------
  // Specification of the scan

  /** Where the run starting at `o` ends: the first separator at or after
      `o`, or the end of the text. */
  function RunEnd(s: string, sep: string, o: nat): (e: nat)
    requires o <= |s|
    ensures o <= e <= |s| && NoSep(s[o..e], sep) && (e < |s| ==> IsSep(s[e], sep))
    decreases |s| - o
  {
    if o == |s| || IsSep(s[o], sep) then o
    else
      var e := RunEnd(s, sep, o + 1);
      assert s[o..e] == [s[o]] + s[o + 1..e];
      e
  }

  /** What a next_token call returns and the offset it leaves. */
  datatype Scan = Scan(token: Option<string>, offset: nat)

  /** One estrtoken_next_token call on the text `s` (the string up to its
      NUL) from offset `o`: nothing once the offset reaches the end;
      otherwise the run up to the next separator, with the offset moved just
      past that separator, where an empty run is skipped by scanning again. */
  function Next(s: string, sep: string, o: nat): (r: Scan)
    ensures o >= |s| ==> r == Scan(None, o)
    ensures o < |s| ==> o < r.offset <= |s| + 1
    decreases |s| - o
  {
    if o >= |s| then Scan(None, o)
    else
      var e := RunEnd(s, sep, o);
      if e == o then Next(s, sep, o + 1) else Scan(Some(s[o..e]), e + 1)
  }

  /** The tokens that successive next_token calls return from offset `o`. */
  function Tokens(s: string, sep: string, o: nat): seq<string>
    decreases |s| + 1 - o
  {
    if o >= |s| then []
    else
      match Next(s, sep, o).token
      case None => []
      case Some(t) => [t] + Tokens(s, sep, Next(s, sep, o).offset)
  }

  /** How many next_token calls estrtoken_count makes: one per call while
      the offset is before the end. */
  function CallCount(s: string, sep: string, o: nat): nat
    decreases |s| + 1 - o
  {
    if o >= |s| then 0 else 1 + CallCount(s, sep, Next(s, sep, o).offset)
  }

  /** The text split at every separator, empty fields included. */
  function Fields(s: string, sep: string): (fs: seq<string>)
    ensures |fs| >= 1
  {
    if s == [] then [[]]
    else
      var f := Fields(s[1..], sep);
      if IsSep(s[0], sep) then [[]] + f else [[s[0]] + f[0]] + f[1..]
  }

  /** The non-empty members of `fs`, in order. */
  function NonEmpty(fs: seq<string>): seq<string>
  {
    if fs == [] then []
    else (if fs[0] == [] then [] else [fs[0]]) + NonEmpty(fs[1..])
  }

  /** The call estrtoken_count makes past the last token: it happens when
      the text left is made of separators only, or ends in two of them. */
  predicate ExtraCall(s: string, sep: string, o: nat)
  {
    o < |s| && (AllSep(s[o..], sep) || (|s| >= 2 && IsSep(s[|s| - 1], sep) && IsSep(s[|s| - 2], sep)))
  }

  // ---------------------------------------------------------------------------
  // Properties of the scan

  /** A next_token call either returns the first maximal run after `o` that
      is free of separators (everything skipped before it is separators, and
      it ends at a separator or at the end), or returns nothing because only
      separators are left, leaving the offset at the end. */
  lemma {:induction false} NextSpec(s: string, sep: string, o: nat)
    requires o < |s|
    ensures Next(s, sep, o).token.Some? ==> Found(s, sep, o, Next(s, sep, o))
    ensures Next(s, sep, o).token.None? ==> AllSep(s[o..], sep) && Next(s, sep, o).offset == |s|
    decreases |s| - o
  {
    var e := RunEnd(s, sep, o);
    var r := Next(s, sep, o);
    if e == o {
      assert IsSep(s[o], sep);
      assert r == Next(s, sep, o + 1);
      if o + 1 < |s| {
        NextSpec(s, sep, o + 1);
        if r.token.Some? {
          var b := r.offset - 1 - |r.token.value|;
          SepsBefore(s, sep, o, b);
        } else {
          SepsBefore(s, sep, o, |s|);
          assert s[o..|s|] == s[o..];
        }
      } else {
        assert s[o..] == [s[o]];
      }
    } else {
      assert r == Scan(Some(s[o..e]), e + 1);
      assert s[o..o] == [];
    }
  }

  /** The token `r` found from `o`: it is the text between `b` and `e`, holds
      no separator, only separators lie between `o` and `b`, and it ends at
      a separator or at the end. */
  predicate Found(s: string, sep: string, o: nat, r: Scan)
    requires r.token.Some?
  {
    var t := r.token.value;
    var e := r.offset - 1;
    var b := e - |t|;
    o <= b < e <= |s| && t == s[b..e] && NoSep(t, sep)
    && AllSep(s[o..b], sep) && (e < |s| ==> IsSep(s[e], sep))
  }

  lemma SepsBefore(s: string, sep: string, o: nat, b: nat)
    requires o < b <= |s| && IsSep(s[o], sep) && AllSep(s[o + 1..b], sep)
    ensures AllSep(s[o..b], sep)
  {
    assert s[o..b] == [s[o]] + s[o + 1..b];
  }

  lemma NonEmptyCons(x: string, rest: seq<string>)
    ensures NonEmpty([x] + rest) == (if x == [] then [] else [x]) + NonEmpty(rest)
  {
    assert ([x] + rest)[1..] == rest;
  }

  /** Where the first run ends, the split at every separator ends its first
      field. */
  lemma {:induction false} FieldsRun(s: string, sep: string, o: nat)
    requires o <= |s|
    ensures var e := RunEnd(s, sep, o);
      Fields(s[o..], sep) == [s[o..e]] + (if e < |s| then Fields(s[e + 1..], sep) else [])
    decreases |s| - o
  {
    var e := RunEnd(s, sep, o);
    if o < |s| {
      assert s[o..][1..] == s[o + 1..];
      if e > o {
        FieldsRun(s, sep, o + 1);
        assert s[o..e] == [s[o]] + s[o + 1..e];
      }
    }
  }

  /** The tokens are exactly the non-empty fields of the text left: adjacent
      separators give no empty token. */
  lemma {:induction false} TokensAreNonEmptyFields(s: string, sep: string, o: nat)
    requires o <= |s|
    ensures Tokens(s, sep, o) == NonEmpty(Fields(s[o..], sep))
    decreases |s| - o
  {
    if o < |s| {
      var e := RunEnd(s, sep, o);
      FieldsRun(s, sep, o);
      var rest: seq<string> := if e < |s| then Fields(s[e + 1..], sep) else [];
      NonEmptyCons(s[o..e], rest);
      if e == o {
        TokensAreNonEmptyFields(s, sep, o + 1);
        TokensSkip(s, sep, o);
      } else {
        TokensRun(s, sep, o);
        if e < |s| {
          TokensAreNonEmptyFields(s, sep, e + 1);
        }
      }
    } else {
      assert s[o..] == [];
    }
  }

  /** A run that starts at the offset is the next token. */
  lemma TokensRun(s: string, sep: string, o: nat)
    requires o < |s| && RunEnd(s, sep, o) != o
    ensures Tokens(s, sep, o) == [s[o..RunEnd(s, sep, o)]] + Tokens(s, sep, RunEnd(s, sep, o) + 1)
  {
    var e := RunEnd(s, sep, o);
    assert Next(s, sep, o) == Scan(Some(s[o..e]), e + 1);
  }

  /** A separator at the offset is stepped over without a token. */
  lemma TokensSkip(s: string, sep: string, o: nat)
    requires o < |s| && IsSep(s[o], sep)
    ensures Tokens(s, sep, o) == Tokens(s, sep, o + 1)
  {
    assert RunEnd(s, sep, o) == o;
    assert Next(s, sep, o) == Next(s, sep, o + 1);
  }

  /** Every token is non-empty and free of separators. */
  lemma {:induction false} TokensShape(s: string, sep: string, o: nat)
    ensures forall t :: t in Tokens(s, sep, o) ==> t != [] && NoSep(t, sep)
    decreases |s| + 1 - o
  {
    if o < |s| {
      NextSpec(s, sep, o);
      var r := Next(s, sep, o);
      if r.token.Some? {
        TokensShape(s, sep, r.offset);
      }
    }
  }

  /** estrtoken_count counts the tokens, plus one call more when the text
      left is non-empty and all separators, or ends in two separators. */
  lemma {:induction false} CountCalls(s: string, sep: string, o: nat)
    ensures CallCount(s, sep, o) == |Tokens(s, sep, o)| + (if ExtraCall(s, sep, o) then 1 else 0)
    decreases |s| + 1 - o
  {
    if o < |s| {
      NextSpec(s, sep, o);
      var r := Next(s, sep, o);
      if r.token.Some? {
        var e := r.offset - 1;
        var b := e - |r.token.value|;
        CountCalls(s, sep, r.offset);
        assert s[b] == r.token.value[0] && s[e - 1] == r.token.value[e - 1 - b];
        assert s[o..][b - o] == s[b];
        if e + 1 < |s| {
          if AllSep(s[e + 1..], sep) {
            assert s[|s| - 1] == s[e + 1..][|s| - 1 - (e + 1)];
            if |s| - 2 > e {
              assert s[|s| - 2] == s[e + 1..][|s| - 2 - (e + 1)];
            }
          }
        }
      } else {
        assert CallCount(s, sep, r.offset) == 0;
      }
    }
  }

  /** "a,b,," split at every comma. */
  lemma FieldsExample()
    ensures Fields("a,b,,", ",") == ["a", "b", [], []]
  {
    var sep := ",";
    assert CStr(sep) == sep by { CStrOfNoNul(sep); }
    assert !IsSep('a', sep) && !IsSep('b', sep) && IsSep(',', sep);
    assert Fields(",", sep) == [[], []] by { assert ","[1..] == []; }
    assert Fields(",,", sep) == [[], [], []] by { assert ",,"[1..] == ","; }
    assert Fields("b,,", sep) == ["b", [], []] by {
      assert "b,,"[1..] == ",," && ['b'] + [] == "b";
    }
    assert Fields(",b,,", sep) == [[], "b", [], []] by { assert ",b,,"[1..] == "b,,"; }
    assert Fields("a,b,,", sep) == ["a", "b", [], []] by {
      assert "a,b,,"[1..] == ",b,," && ['a'] + [] == "a";
    }
  }

  /** "a,b,," holds the tokens "a" and "b", yet estrtoken_count reports 3:
      the two trailing commas cost a call that returns NULL. */
  lemma CountExample()
    ensures Tokens("a,b,,", ",", 0) == ["a", "b"]
    ensures CallCount("a,b,,", ",", 0) == 3
  {
    var s, sep := "a,b,,", ",";
    assert Tokens(s, sep, 0) == ["a", "b"] by {
      FieldsExample();
      assert s[0..] == s;
      TokensAreNonEmptyFields(s, sep, 0);
      assert NonEmpty(Fields(s, sep)) == ["a", "b"];
    }
    assert ExtraCall(s, sep, 0) by {
      CStrOfNoNul(sep);
    }
    CountCalls(s, sep, 0);
  }

  // ---------------------------------------------------------------------------
  // The cursor

  /** estrtoken_handle_t: the borrowed string and separators, the string's
      length and the scan offset. */
  class Cursor {
    var str: string
    var sep: string
    var len: nat
    var offset: nat

    ghost predicate Inv()
      reads this
    {
      len == NulIndex(str) && offset <= len + 1
    }

    /** The text being scanned: the string up to its NUL. */
    function Source(): (s: string)
      reads this
      requires Inv()
      ensures s == CStr(str) && NoNul(s)
    {
      str[..len]
    }

    /** estrtoken_init (lib/estrtoken.c:61-68): keeps both strings by
        reference, measures the string and starts at offset 0. */
    constructor Init(str: string, sep: string)
      ensures Inv() && this.str == str && this.sep == sep
      ensures len == NulIndex(str) && offset == 0
    {
      this.str := str;
      this.sep := sep;
      len := NulIndex(str);
      offset := 0;
    }

    /** estrtoken_has_more_tokens (lib/estrtoken.c:106-110): the offset is
        before the end.  A false answer means no token is left; a true one
        does not promise a token, as only separators may remain. */
    function HasMoreTokens(): (b: bool)
      reads this
      requires Inv()
      ensures b <==> offset < len
      ensures !b ==> Tokens(Source(), sep, offset) == [] && CallCount(Source(), sep, offset) == 0
    {
      offset < len
    }

    /** estrtoken_next_token (lib/estrtoken.c:118-148): scan for the next
        separator, take the run before it, move the offset just past it and,
        when the run was empty, scan again. */
    method NextToken() returns (tok: Option<string>)
      requires Inv()
      modifies this
      ensures Inv() && str == old(str) && sep == old(sep) && len == old(len)
      ensures Scan(tok, offset) == Next(old(Source()), sep, old(offset))
      ensures old(offset) < len ==> old(offset) < offset <= len + 1
      ensures old(offset) >= len ==> tok.None? && offset == old(offset)
      ensures tok.Some? ==> tok.value != [] && NoSep(tok.value, sep)
    {
      ghost var s := Source();
      ghost var o0 := offset;
      while HasMoreTokens()
        invariant Inv() && str == old(str) && sep == old(sep) && len == old(len) && s == Source()
        invariant Next(s, sep, offset) == Next(s, sep, o0)
        decreases len + 1 - offset
      {
        var i := ScanRun();
        var t := Text.RawSubstring(str, offset, i);
        assert t == s[offset..offset + i];
        offset := offset + i + 1;
        if t != [] {
          tok := Some(t);
          NextSpec(s, sep, o0);
          return;
        }
      }
      tok := None;
    }

    /** The scan loop of estrtoken_next_token (lib/estrtoken.c:129-140):
        step over characters until one is a separator or the end is reached;
        `i` is the length of the run. */
    method ScanRun() returns (i: nat)
      requires Inv() && offset < len
      ensures offset + i == RunEnd(Source(), sep, offset)
    {
      ghost var s := Source();
      i := 0;
      var end := false;
      while !end
        invariant offset + i <= len
        invariant RunEnd(s, sep, offset + i) == RunEnd(s, sep, offset)
        invariant end ==> offset + i < len && IsSep(s[offset + i], sep)
        decreases len - (offset + i), !end
      {
        if offset + i >= len {
          break;
        }
        var c := str[offset + i];
        var split := SplitCondition(c, sep);
        if split {
          end := true;
        } else {
          i := i + 1;
        }
      }
    }

    /** estrtoken_count (lib/estrtoken.c:76-88): rewind, call next_token
        while tokens remain, and put the offset back. */
    method Count() returns (count: nat)
      requires Inv()
      modifies this
      ensures Inv() && str == old(str) && sep == old(sep) && len == old(len) && offset == old(offset)
      ensures count == CallCount(Source(), sep, 0)
      ensures count == |Tokens(Source(), sep, 0)| + (if ExtraCall(Source(), sep, 0) then 1 else 0)
    {
      ghost var s := Source();
      var saved := offset;
      offset := 0;
      count := 0;
      while HasMoreTokens()
        invariant Inv() && str == old(str) && sep == old(sep) && len == old(len)
        invariant count + CallCount(s, sep, offset) == CallCount(s, sep, 0)
        decreases len + 1 - offset
      {
        var _ := NextToken();
        count := count + 1;
      }
      offset := saved;
      CountCalls(s, sep, 0);
    }

    /** estrtoken_set_separator (lib/estrtoken.c:157-160): only the
        separators change; the text already consumed is not scanned again. */
    method SetSeparator(sep: string)
      requires Inv()
      modifies this
      ensures Inv() && this.sep == sep && str == old(str) && len == old(len) && offset == old(offset)
    {
      this.sep := sep;
    }
  }
}

=== FILE: format.dfy ===
/**
 * The printf-style formatter shared by estr_vprintf (lib/estr.c:455-528) and
 * estrbuffer_vprintf (lib/estrbuffer.c:352-424), as a pure function from a
 * format string and an explicit argument list to the text it appends.
 *
 * Both revisions scan the format left to right with one index `p`; on '%'
 * they step over an optional '#', then over the "width" quirk, then switch on
 * the conversion character.  The C variadic arguments are an explicit list;
 * a missing argument, a string given where a number is read or the reverse,
 * a step past the format's terminator, a signed overflow and a '%f'
 * conversion (floating point) are undefined here and make the rendering an
 * `Err`.
 */
module Format {
  import opened CStrings
  import opened Text

  /** A C `int`. */
  newtype i32 = x: int | -0x8000_0000 <= x < 0x8000_0000

  const INT_MIN: i32 := -0x8000_0000
  const UINT_RANGE: int := 0x1_0000_0000
  const ULONG_RANGE: int := 0x1_0000_0000_0000_0000

  /** One variadic argument: an `int`, a `char` (promoted to an int by the
      call) or a `char*`. */
  datatype Arg = Int(i: i32) | Char(c: char) | Str(s: string)

  /** The int that `va_arg(pa, int)` reads: a char argument arrives promoted
      to its code. */
  function IntArg(a: Arg): i32
    requires !a.Str?
  {
    if a.Int? then a.i else a.c as int as i32
  }

  /** The character `(char)va_arg(pa, int)` gives (lib/estrbuffer.c:380,
      lib/estr.c:484): a char argument comes back as itself, an int keeps
      its low byte. */
  function CharArg(a: Arg): char
    requires !a.Str?
  {
    if a.Char? then a.c else ((a.i as int) % 256) as char
  }

  /** Why a format cannot be rendered: the C code would read an argument that
      is not there, read a `char*` where an int was passed or an int where a
      `char*` is read, read past the format's NUL, negate INT_MIN, or format
      a double. */
  datatype Undefined = MissingArgument | WrongArgument | PastTerminator | SignedOverflow | FloatConversion

  datatype Result<T> = Ok(value: T) | Err(why: Undefined)

  /** What one pass of the scan loop emits, where `p` goes next and which
      arguments are left. */
  datatype Piece = Piece(text: string, next: nat, rest: seq<Arg>)

  /** The character at `p`, the terminator at and after the end. */
  function At(f: string, p: nat): char
  {
    if p < |f| then f[p] else NUL
  }

  /** `isdigit(*p+1)`: the test adds one to the character code instead of
      reading the next character. */
  predicate IsDigitCode(x: int)
  {
    '0' as int <= x <= '9' as int
  }

  /** The condition of lib/estrbuffer.c:368 and lib/estr.c:472. */
  predicate WidthQuirk(c: char)
  {
    (IsDigit(c) || c == ' ') && IsDigitCode(c as int + 1)
  }

  /** The quirk fires exactly for '0'..'8': '9' + 1 is ':' and ' ' + 1 is '!'. */
  lemma WidthQuirkDigits(c: char)
    ensures WidthQuirk(c) <==> '0' <= c <= '8'
  {
  }

  /** `va_arg(pa, unsigned int)` applied to an int argument. */
  function AsUnsigned(v: i32): (n: nat)
    ensures n < UINT_RANGE && n == (v as int) % UINT_RANGE
  {
    ModWrap(v as int, UINT_RANGE);
    if v < 0 then v as int + UINT_RANGE else v as int
  }

  /** An int passed where estr_convert takes an `unsigned long`: sign extension to 64 bits. */
  function AsULong(v: i32): (n: nat)
    ensures n < ULONG_RANGE && n == (v as int) % ULONG_RANGE
  {
    ModWrap(v as int, ULONG_RANGE);
    if v < 0 then v as int + ULONG_RANGE else v as int
  }

  /** Reduction modulo `m` of a value within one period of zero. */
  lemma ModWrap(x: int, m: int)
    requires 0 < m && -m <= x < m
    ensures x % m == if x < 0 then x + m else x
  {
    if x < 0 {
      assert x == m * (-1) + (x + m);
    }
  }

  /** The conversions that read an int argument. */
  predicate IsIntConversion(c: char)
  {
    c == 'd' || c == 'i' || c == 'u' || c == 'o' || c == 'p' || c == 'x' || c == 'X'
  }

  /** The text of an integer conversion (lib/estrbuffer.c:382-405). */
  function IntText(conv: char, v: i32): Result<string>
  {
    if conv == 'd' || conv == 'i' then
      if v == INT_MIN then Err(SignedOverflow)
      else if v < 0 then Ok("-" + Convert(-(v as int), 10))
      else Ok(Convert(v as int, 10))
    else if conv == 'u' then Ok(Convert(AsUnsigned(v), 10))
    else if conv == 'o' then Ok(Convert(AsUnsigned(v), 8))
    else if conv == 'X' then Ok(ToUpperStr(Convert(AsULong(v), 16)))
    else Ok(Convert(AsUnsigned(v), 16))
  }

  /** An integer conversion gives at least one character, and is undefined
      only where %d or %i negates INT_MIN. */
  lemma IntTextCases(conv: char, v: i32)
    ensures IntText(conv, v).Err? <==> (conv == 'd' || conv == 'i') && v == INT_MIN
    ensures IntText(conv, v).Err? ==> IntText(conv, v).why == SignedOverflow
    ensures IntText(conv, v).Ok? ==> |IntText(conv, v).value| >= 1
  {
  }

  /** The conversions that read one variadic argument. */
  predicate TakesArgument(conv: char)
  {
    conv == 'c' || conv == 's' || IsIntConversion(conv)
  }

  /** The switch on the conversion character (lib/estrbuffer.c:375-416):
      the text it appends and the arguments it leaves. */
  function Conversion(conv: char, args: seq<Arg>): Result<(string, seq<Arg>)>
  {
    if conv == '%' then Ok(("%", args))
    else if conv == 'f' then Err(FloatConversion)
    else if TakesArgument(conv) then
      if args == [] then Err(MissingArgument)
      else
        var a, rest := args[0], args[1..];
        if conv == 's' then
          if a.Str? then Ok((CStr(a.s), rest)) else Err(WrongArgument)
        else if a.Str? then Err(WrongArgument)
        else if conv == 'c' then
          var c := CharArg(a);
          Ok((if c == NUL then [] else [c], rest))
        else
          match IntText(conv, IntArg(a))
          case Err(e) => Err(e)
          case Ok(t) => Ok((t, rest))
    else Ok(([conv], args))
  }

  /** The outcomes of the switch: a conversion that reads an argument
      consumes exactly one; a `char*` is refused where an int is read and
      the reverse; '%f' is refused; every other character is echoed without
      consuming anything. */
  lemma ConversionCases(conv: char, args: seq<Arg>)
    ensures Conversion(conv, args) == Err(FloatConversion) <==> conv == 'f'
    ensures Conversion(conv, args) == Err(MissingArgument) <==> TakesArgument(conv) && args == []
    ensures Conversion(conv, args) == Err(WrongArgument) <==>
      TakesArgument(conv) && args != [] && (conv == 's') != args[0].Str?
    ensures Conversion(conv, args).Ok? && TakesArgument(conv) ==> Conversion(conv, args).value.1 == args[1..]
    ensures conv != 'f' && !TakesArgument(conv) ==> Conversion(conv, args) == Ok(([conv], args))
  {
  }

  /** What a conversion appends never holds a NUL, so appending it as a C
      string appends all of it. */
  lemma ConversionNoNul(conv: char, args: seq<Arg>)
    requires conv != NUL && Conversion(conv, args).Ok?
    ensures NoNul(Conversion(conv, args).value.0)
  {
    if IsIntConversion(conv) && args != [] && !args[0].Str? {
      var v := IntArg(args[0]);
      var n := if conv == 'd' || conv == 'i' then (if v < 0 then -(v as int) else v as int)
        else if conv == 'X' then AsULong(v) else AsUnsigned(v);
      var base := if conv == 'd' || conv == 'i' || conv == 'u' then 10 else if conv == 'o' then 8 else 16;
      ConvertNoNul(n, base);
    } else if conv == 's' {
      assert args[0].Str?;
    }
  }

  /** One pass of the scan loop starting at `p`. */
  function Step(f: string, p: nat, args: seq<Arg>): (r: Result<Piece>)
    requires NoNul(f) && p < |f|
    ensures r.Ok? ==> p < r.value.next <= |f|
  {
    if f[p] != '%' then Ok(Piece([f[p]], p + 1, args))
    else
      var hash := At(f, p + 1) == '#';
      var j := if hash then p + 2 else p + 1;
      var d := At(f, j);
      var quirk := WidthQuirk(d);
      var pad := if quirk then Repeat(d, d as int + 1 - '0' as int) else [];
      var k := if quirk then j + 2 else j;
      if k >= |f| then Err(PastTerminator)
      else
        match Conversion(f[k], args)
        case Err(e) => Err(e)
        case Ok((t, rest)) => Ok(Piece((if hash then "0x" else "") + pad + t, k + 1, rest))
  }

  /** The parts of a successful step at a '%': whether '#' follows, where
      the width quirk is checked, and where the conversion character is. */
  lemma DirectiveParts(f: string, p: nat, args: seq<Arg>) returns (hash: bool, j: nat, quirk: bool, k: nat)
    requires NoNul(f) && p < |f| && f[p] == '%' && Step(f, p, args).Ok?
    ensures hash == (At(f, p + 1) == '#') && j == (if hash then p + 2 else p + 1)
    ensures quirk == WidthQuirk(At(f, j)) && k == (if quirk then j + 2 else j) && k < |f|
    ensures Conversion(f[k], args).Ok?
    ensures Step(f, p, args).value ==
      Piece((if hash then "0x" else "")
            + (if quirk then Repeat(At(f, j), At(f, j) as int + 1 - '0' as int) else [])
            + Conversion(f[k], args).value.0,
            k + 1, Conversion(f[k], args).value.1)
  {
    hash := At(f, p + 1) == '#';
    j := if hash then p + 2 else p + 1;
    quirk := WidthQuirk(At(f, j));
    k := if quirk then j + 2 else j;
  }

  /** What one step appends holds no NUL. */
  lemma StepNoNul(f: string, p: nat, args: seq<Arg>)
    requires NoNul(f) && p < |f|
    ensures Step(f, p, args).Ok? ==> NoNul(Step(f, p, args).value.text)
  {
    if f[p] == '%' && Step(f, p, args).Ok? {
      var hash, j, quirk, k := DirectiveParts(f, p, args);
      ConversionNoNul(f[k], args);
    }
  }

  /** The text the scan appends from position `p` to the terminator. */
  function RenderFrom(f: string, p: nat, args: seq<Arg>): Result<string>
    requires NoNul(f) && p <= |f|
    decreases |f| - p
  {
    if p == |f| then Ok([])
    else
      match Step(f, p, args)
      case Err(e) => Err(e)
      case Ok(piece) =>
        match RenderFrom(f, piece.next, piece.rest)
        case Err(e) => Err(e)
        case Ok(t) => Ok(piece.text + t)
  }

  /** The text vprintf appends for `fmt` and `args`: the scan of the format
      up to its NUL. */
  function Render(fmt: string, args: seq<Arg>): Result<string>
  {
    RenderFrom(CStr(fmt), 0, args)
  }

  /** The rendered text holds no NUL, so the appends that build it append
      all of it. */
  lemma {:induction false} RenderNoNul(f: string, p: nat, args: seq<Arg>)
    requires NoNul(f) && p <= |f|
    ensures RenderFrom(f, p, args).Ok? ==> NoNul(RenderFrom(f, p, args).value)
    decreases |f| - p
  {
    if p < |f| && Step(f, p, args).Ok? {
      StepNoNul(f, p, args);
      var piece := Step(f, p, args).value;
      RenderNoNul(f, piece.next, piece.rest);
    }
  }

  // ---------------------------------------------------------------------------
  // Properties

  /** A format without '%' is copied verbatim and consumes no argument. */
  lemma {:induction false} RenderLiteral(f: string, p: nat, args: seq<Arg>)
    requires NoNul(f) && p <= |f|
    requires forall i :: p <= i < |f| ==> f[i] != '%'
    ensures RenderFrom(f, p, args) == Ok(f[p..])
    decreases |f| - p
  {
    if p < |f| {
      RenderLiteral(f, p + 1, args);
      assert f[p..] == [f[p]] + f[p + 1..];
    }
  }

  /** A format that is one conversion with no '#' and no width: the
      rendering is the conversion's text. */
  lemma {:induction false} SingleConversion(c: char, args: seq<Arg>)
    requires c != NUL && c != '#' && !WidthQuirk(c)
    ensures Render(['%', c], args) ==
      match Conversion(c, args)
      case Err(e) => Err(e)
      case Ok((t, _)) => Ok(t)
  {
    var f := ['%', c];
    CStrOfNoNul(f);
    assert At(f, 1) == c;
    match Conversion(c, args)
    case Err(e) =>
      assert Step(f, 0, args) == Err(e);
    case Ok((t, rest)) =>
      assert Step(f, 0, args) == Ok(Piece([] + [] + t, 2, rest));
      assert RenderFrom(f, 2, rest) == Ok([]);
      assert [] + [] + t + [] == t;
  }

  /** An integer conversion applied to one int argument renders as its text. */
  lemma IntConversion(c: char, v: i32)
    requires IsIntConversion(c)
    ensures Render(['%', c], [Int(v)]) == IntText(c, v)
  {
    SingleConversion(c, [Int(v)]);
    ConversionOfInt(c, v, []);
  }

  lemma ConversionOfInt(c: char, v: i32, rest: seq<Arg>)
    requires IsIntConversion(c)
    ensures Conversion(c, [Int(v)] + rest) ==
      match IntText(c, v)
      case Err(e) => Err(e)
      case Ok(t) => Ok((t, rest))
  {
    var a := ([Int(v)] + rest)[0];
    assert a == Int(v) && !a.Str? && IntArg(a) == v;
    assert ([Int(v)] + rest)[1..] == rest;
  }

  /** '%%' emits one '%'; an unrecognised conversion character is emitted as itself. */
  lemma PercentAndUnknown(c: char, args: seq<Arg>)
    requires c != NUL && c != '#' && c != '%' && c != 'f' && c != 'c' && c != 's' && !IsIntConversion(c)
    requires !WidthQuirk(c)
    ensures Render("%%", args) == Ok("%")
    ensures Render(['%', c], args) == Ok([c])
  {
    SingleConversion('%', args);
    SingleConversion(c, args);
  }

  /** %d and %i: a negative value is a '-' followed by the decimal digits of
      its magnitude; reading the digits back gives that magnitude. */
  lemma SignedDecimal(conv: char, v: i32)
    requires conv == 'd' || conv == 'i'
    requires v != INT_MIN
    ensures IntText(conv, v).Ok?
    ensures var s := IntText(conv, v).value;
      && (v < 0 <==> s[0] == '-')
      && (v < 0 ==> Value(s[1..], 10) == -(v as int))
      && (v >= 0 ==> Value(s, 10) == v as int)
  {
    if v < 0 {
      var m := -(v as int);
      var digits := Convert(m, 10);
      assert IntText(conv, v) == Ok("-" + digits);
      ConvertValue(m, 10);
      assert ("-" + digits)[1..] == digits;
    } else {
      var digits := Convert(v as int, 10);
      assert IntText(conv, v) == Ok(digits);
      ConvertValue(v as int, 10);
      ConvertDigits(v as int, 10);
      assert digits[0] in DIGITS;
    }
  }

  /** %u, %o, %x and %p read the argument as an unsigned int: the digits
      read back give the argument modulo 2^32. */
  lemma UnsignedConversion(c: char, v: i32)
    requires c == 'u' || c == 'o' || c == 'p' || c == 'x'
    ensures IntText(c, v).Ok?
    ensures var base := if c == 'u' then 10 else if c == 'o' then 8 else 16;
      Value(IntText(c, v).value, base) == AsUnsigned(v) == (v as int) % UINT_RANGE
  {
    var base := if c == 'u' then 10 else if c == 'o' then 8 else 16;
    var n := AsUnsigned(v);
    assert IntText(c, v) == Ok(Convert(n, base));
    ConvertValue(n, base);
  }

  /** %X sign-extends the int to 64 bits and upper-cases the hex digits: the
      digits read back give the argument modulo 2^64. */
  lemma UpperHexConversion(v: i32)
    ensures IntText('X', v).Ok?
    ensures Value(IntText('X', v).value, 16) == AsULong(v) == (v as int) % ULONG_RANGE
  {
    var n := AsULong(v);
    var digits := Convert(n, 16);
    assert IntText('X', v) == Ok(ToUpperStr(digits));
    ConvertValue(n, 16);
    ConvertDigits(n, 16);
    ValueToUpper(digits);
  }

  /** Upper-casing hex digits keeps their value. */
  lemma {:induction false} ValueToUpper(s: string)
    requires forall i :: 0 <= i < |s| ==> s[i] in DIGITS
    ensures Value(ToUpperStr(s), 16) == Value(s, 16)
  {
    if s != [] {
      var s' := s[..|s| - 1];
      ValueToUpper(s');
      assert ToUpperStr(s)[..|s| - 1] == ToUpperStr(s');
      assert DigitValue(ToUpperChar(s[|s| - 1])) == DigitValue(s[|s| - 1]);
    }
  }

  /** A conversion with neither '#' nor width. */
  lemma StepPlain(f: string, p: nat, args: seq<Arg>)
    requires NoNul(f) && p + 1 < |f| && f[p] == '%' && f[p + 1] != '#' && !WidthQuirk(f[p + 1])
    ensures Step(f, p, args) ==
      match Conversion(f[p + 1], args)
      case Err(e) => Err(e)
      case Ok((t, rest)) => Ok(Piece(t, p + 2, rest))
  {
    assert At(f, p + 1) == f[p + 1];
    match Conversion(f[p + 1], args)
    case Err(e) =>
    case Ok((t, rest)) =>
      assert "" + [] + t == t;
  }

  /** '%#' emits "0x" before the conversion. */
  lemma StepHash(f: string, p: nat, args: seq<Arg>)
    requires NoNul(f) && p + 2 < |f| && f[p] == '%' && f[p + 1] == '#' && !WidthQuirk(f[p + 2])
    ensures Step(f, p, args) ==
      match Conversion(f[p + 2], args)
      case Err(e) => Err(e)
      case Ok((t, rest)) => Ok(Piece("0x" + t, p + 3, rest))
  {
    assert At(f, p + 1) == '#' && At(f, p + 2) == f[p + 2];
    match Conversion(f[p + 2], args)
    case Err(e) =>
    case Ok((t, rest)) =>
      assert "0x" + [] + t == "0x" + t;
  }

  /** A successful step followed by the rendering of the rest. */
  lemma RenderStep(f: string, p: nat, args: seq<Arg>, piece: Piece)
    requires NoNul(f) && p < |f| && Step(f, p, args) == Ok(piece)
    ensures RenderFrom(f, p, args) ==
      match RenderFrom(f, piece.next, piece.rest)
      case Err(e) => Err(e)
      case Ok(t) => Ok(piece.text + t)
  {
  }

  /** One conversion on one int argument renders as the conversion's text;
      with '#' in front it gains "0x". */
  lemma SingleIntConversion(c: char, v: i32)
    requires IsIntConversion(c)
    ensures Render(['%', c], [Int(v)]) == IntText(c, v)
    ensures IntText(c, v).Ok? ==> Render(['%', '#', c], [Int(v)]) == Ok("0x" + IntText(c, v).value)
  {
    IntConversion(c, v);
    var f := ['%', '#', c];
    CStrOfNoNul(f);
    StepHash(f, 0, [Int(v)]);
    ConversionOfInt(c, v, []);
    assert [Int(v)] + [] == [Int(v)];
    if IntText(c, v).Ok? {
      var t := IntText(c, v).value;
      RenderStep(f, 0, [Int(v)], Piece("0x" + t, 3, []));
      assert "0x" + t + [] == "0x" + t;
    }
  }

  /** The width quirk: a digit d in '0'..'8' after '%' emits d, (d + 1) times,
      and the scan then skips d and the character after it. */
  lemma WidthQuirkStep(f: string, p: nat, args: seq<Arg>)
    requires NoNul(f) && p + 3 < |f| && f[p] == '%' && '0' <= f[p + 1] <= '8' && f[p + 3] == '%'
    ensures var n := f[p + 1] as int - '0' as int + 1;
      Step(f, p, args) == Ok(Piece(Repeat(f[p + 1], n) + "%", p + 4, args))
  {
    var d := f[p + 1];
    assert At(f, p + 1) == d && d != '#' && WidthQuirk(d);
    assert f[p + 3] == '%' && Conversion('%', args) == Ok(("%", args));
    assert [] + Repeat(d, d as int + 1 - '0' as int) + "%" == Repeat(d, d as int + 1 - '0' as int) + "%";
  }

  /** A mixed format: %d, %x and %s with -5, 255 and "ok". */
  lemma RenderExample()
    ensures Render("%d-%x-%s", [Int(-5), Int(255), Str("ok")]) == Ok("-5-ff-ok")
  {
    var f := "%d-%x-%s";
    var a0, a1 := [Int(-5), Int(255), Str("ok")], [Int(255), Str("ok")];
    ExampleWhole(f, a0, a1);
    CStrOfNoNul(f);
  }

  lemma ExampleWhole(f: string, a0: seq<Arg>, a1: seq<Arg>)
    requires f == "%d-%x-%s" && a0 == [Int(-5), Int(255), Str("ok")] && a1 == [Int(255), Str("ok")]
    ensures NoNul(f) && RenderFrom(f, 0, a0) == Ok("-5-ff-ok")
  {
    ExampleHead(f, a0, a1);
    ExampleTail(f, a1);
    RenderStep(f, 0, a0, Piece("-5", 2, a1));
    assert "-5" + "-ff-ok" == "-5-ff-ok";
  }

  lemma ExampleHead(f: string, a0: seq<Arg>, a1: seq<Arg>)
    requires f == "%d-%x-%s" && a0 == [Int(-5), Int(255), Str("ok")] && a1 == [Int(255), Str("ok")]
    ensures Step(f, 0, a0) == Ok(Piece("-5", 2, a1))
  {
    assert |f| == 8 && f[0] == '%' && f[1] == 'd';
    MinusFive();
    ConversionOfInt('d', -5, a1);
    assert [Int(-5)] + a1 == a0;
    assert Conversion('d', a0) == Ok(("-5", a1));
    StepPlain(f, 0, a0);
  }

  lemma MinusFive()
    ensures IntText('d', -5) == Ok("-5")
  {
    assert IntText('d', -5) == Ok("-" + Convert(5, 10));
    assert Convert(5, 10) == "5";
    assert "-" + Convert(5, 10) == "-5";
  }

  lemma ExampleTail(f: string, a1: seq<Arg>)
    requires f == "%d-%x-%s" && a1 == [Int(255), Str("ok")]
    ensures RenderFrom(f, 2, a1) == Ok("-ff-ok")
  {
    assert |f| == 8 && f[2] == '-' && f[3] == '%' && f[4] == 'x' && NoNul(f);
    var a2 := [Str("ok")];
    ExampleHex(a1, a2);
    ExampleLast(f, a2);
    RenderConversion(f, 3, a1, "ff", a2);
    RenderChar(f, 2, a1);
    assert "-" + ("ff" + "-ok") == "-ff-ok";
  }

  lemma ExampleHex(a1: seq<Arg>, a2: seq<Arg>)
    requires a1 == [Int(255), Str("ok")] && a2 == [Str("ok")]
    ensures Conversion('x', a1) == Ok(("ff", a2))
  {
    assert Convert(15, 16) == "f";
    assert Convert(255, 16) == "ff";
    assert IntText('x', 255) == Ok("ff");
    ConversionOfInt('x', 255, a2);
    assert [Int(255)] + a2 == a1;
  }

  lemma ExampleLast(f: string, a2: seq<Arg>)
    requires f == "%d-%x-%s" && a2 == [Str("ok")]
    ensures RenderFrom(f, 5, a2) == Ok("-ok")
  {
    assert |f| == 8 && f[5] == '-' && f[6] == '%' && f[7] == 's' && NoNul(f);
    CStrOfNoNul("ok");
    assert a2[1..] == [];
    assert Conversion('s', a2) == Ok(("ok", []));
    assert RenderFrom(f, 8, []) == Ok([]);
    RenderConversion(f, 6, a2, "ok", []);
    RenderChar(f, 5, a2);
    assert "-" + ("ok" + []) == "-ok";
  }

  /** A literal character is copied and the scan moves on by one. */
  lemma RenderChar(f: string, p: nat, args: seq<Arg>)
    requires NoNul(f) && p < |f| && f[p] != '%'
    ensures RenderFrom(f, p, args) ==
      match RenderFrom(f, p + 1, args)
      case Err(e) => Err(e)
      case Ok(t) => Ok([f[p]] + t)
  {
    RenderStep(f, p, args, Piece([f[p]], p + 1, args));
  }

  /** A plain '%' directive whose conversion succeeds emits its text and
      the scan goes on after the conversion character. */
  lemma RenderConversion(f: string, p: nat, args: seq<Arg>, t: string, rest: seq<Arg>)
    requires NoNul(f) && p + 1 < |f| && f[p] == '%' && f[p + 1] != '#' && !WidthQuirk(f[p + 1])
    requires Conversion(f[p + 1], args) == Ok((t, rest))
    ensures RenderFrom(f, p, args) ==
      match RenderFrom(f, p + 2, rest)
      case Err(e) => Err(e)
      case Ok(u) => Ok(t + u)
  {
    StepPlain(f, p, args);
    RenderStep(f, p, args, Piece(t, p + 2, rest));
  }

  /** The width quirk on whole formats: "%02x" emits one '0' and then the
      conversion; "%9d" emits a literal '9' and then 'd'; "%5d" emits five
      '5's and then steps past the terminator. */
  lemma WidthExamples()
    ensures Render("%02x", [Int(255)]) == Ok("0ff")
    ensures Render("%9d", [Int(1)]) == Ok("9d")
    ensures Render("%5d", [Int(1)]) == Err(PastTerminator)
  {
    WidthExampleHex();
    WidthExampleNine();
    var h := "%5d";
    CStrOfNoNul(h);
    assert |h| == 3 && h[0] == '%' && At(h, 1) == '5' && WidthQuirk('5');
    assert Step(h, 0, [Int(1)]) == Err(PastTerminator);
  }

  lemma WidthExampleNine()
    ensures Render("%9d", [Int(1)]) == Ok("9d")
  {
    var g := "%9d";
    var a := [Int(1)];
    CStrOfNoNul(g);
    assert |g| == 3 && g[0] == '%' && g[1] == '9' && g[2] == 'd' && !WidthQuirk('9');
    assert Conversion('9', a) == Ok(("9", a));
    StepPlain(g, 0, a);
    assert Step(g, 0, a) == Ok(Piece("9", 2, a));
    assert Step(g, 2, a) == Ok(Piece("d", 3, a));
    assert RenderFrom(g, 3, a) == Ok([]);
    RenderStep(g, 2, a, Piece("d", 3, a));
    assert RenderFrom(g, 2, a) == Ok("d" + []);
    RenderStep(g, 0, a, Piece("9", 2, a));
    assert "9" + ("d" + []) == "9d";
  }

  lemma WidthExampleHex()
    ensures Render("%02x", [Int(255)]) == Ok("0ff")
  {
    var f := "%02x";
    CStrOfNoNul(f);
    assert |f| == 4 && f[0] == '%' && f[3] == 'x';
    assert Convert(15, 16) == "f";
    assert Convert(255, 16) == "ff";
    assert IntText('x', 255) == Ok("ff");
    ConversionOfInt('x', 255, []);
    assert [Int(255)] + [] == [Int(255)];
    assert Conversion(f[3], [Int(255)]) == Ok(("ff", []));
    assert At(f, 1) == '0' && WidthQuirk('0');
    assert Repeat('0', 1) == "0";
    assert Step(f, 0, [Int(255)]) == Ok(Piece("" + "0" + "ff", 4, []));
    assert "" + "0" + "ff" == "0ff";
    assert RenderFrom(f, 4, []) == Ok([]);
    RenderStep(f, 0, [Int(255)], Piece("0ff", 4, []));
    assert "0ff" + [] == "0ff";
  }

  /** Formats the C code cannot render. */
  lemma UndefinedExamples()
    ensures Render("50%", []) == Err(PastTerminator)
    ensures Render("%f", []) == Err(FloatConversion)
    ensures Render("%s", []) == Err(MissingArgument)
    ensures Render("%s", [Int(1)]) == Err(WrongArgument)
    ensures Render("%d", [Int(INT_MIN)]) == Err(SignedOverflow)
  {
    var f := "50%";
    CStrOfNoNul(f);
    RenderStep(f, 0, [], Piece("5", 1, []));
    RenderStep(f, 1, [], Piece("0", 2, []));
    assert Step(f, 2, []) == Err(PastTerminator);
    SingleConversion('f', []);
    SingleConversion('s', []);
    SingleConversion('s', [Int(1)]);
    IntConversion('d', INT_MIN);
  }

  /** Calls that C defines through argument promotion: a `char` given to an
      integer conversion prints its code, and an int given to %c prints its
      low byte, nothing when that byte is NUL. */
  lemma PromotedArgument(k: char, c: char, v: i32)
    requires IsIntConversion(k)
    ensures Render(['%', k], [Char(c)]) == IntText(k, c as int as i32)
    ensures Render("%c", [Int(v)]) ==
      Ok(if (v as int) % 256 == 0 then [] else [((v as int) % 256) as char])
  {
    SingleConversion(k, [Char(c)]);
    assert [Char(c)][1..] == [];
    SingleConversion('c', [Int(v)]);
  }

  /** An int prints through %c as the character of its low byte. */
  lemma PromotedCharExamples()
    ensures Render("%c", [Int(65)]) == Ok("A")
    ensures Render("%c", [Int(321)]) == Ok("A")
    ensures Render("%c", [Int(256)]) == Ok("")
  {
    PromotedArgument('d', 'A', 65);
    PromotedArgument('d', 'A', 321);
    PromotedArgument('d', 'A', 256);
    assert 65 % 256 == 321 % 256 == 65 && 256 % 256 == 0;
  }

  /** A char prints through %d as its code. */
  lemma PromotedIntExample()
    ensures Render("%d", [Char('A')]) == Ok("65")
  {
    PromotedArgument('d', 'A', 0);
    assert 'A' as int as i32 == 65;
    assert IntText('d', 65) == Ok(Convert(65, 10));
    assert Convert(65, 10) == Convert(6, 10) + [DigitChar(5)] == [DigitChar(6), DigitChar(5)];
    DigitCharTable(6);
    DigitCharTable(5);
  }

  /** Appending three pieces one after the other appends their concatenation. */
  lemma AppendThree(s: string, a: string, b: string, c: string, x: string, y: string, z: string)
    requires x == s + a && y == x + b && z == y + c
    ensures z == s + (a + b + c)
  {
  }

  /** Appending two pieces one after the other appends their concatenation. */
  lemma AppendTwo(s: string, a: string, b: string, x: string, z: string)
    requires x == s + a && z == x + b
    ensures z == s + (a + b)
  {
  }

  /** Moving a piece from the text still to render to the text rendered. */
  lemma MoveAcross(before: string, t: string, tail: string, now: string, goal: string)
    requires before + (t + tail) == goal && now == before + t
    ensures now + tail == goal
  {
  }
}

=== FILE: text.dfy ===
/**
 * The stateless text helpers of lib/estr.c (radix conversion, hex-to-binary
 * expansion, search, counting, prefix/suffix tests, ASCII case mapping) and
 * the two raw-string helpers that lib/estrtoken.c and lib/estrbuffer.c call
 * through api/estr.h (substring and upper-casing of a borrowed string).
 *
 * The source returns radix and hex results in static scratch arrays; here
 * every result is a fresh sequence.
 */
module Text {
  import opened CStrings

  // ---------------------------------------------------------------------------
  // ASCII character classes (C locale)

  predicate IsDigit(c: char) { '0' <= c <= '9' }
  predicate IsUpper(c: char) { 'A' <= c <= 'Z' }
  predicate IsLower(c: char) { 'a' <= c <= 'z' }

  /** tolower in the C locale: only 'A'..'Z' move, by 32 code points. */
  function ToLowerChar(c: char): (r: char)
    ensures !IsUpper(r)
    ensures IsUpper(c) ==> r as int == c as int + 32
    ensures !IsUpper(c) ==> r == c
  {
    if IsUpper(c) then (c as int + 32) as char else c
  }

  /** toupper in the C locale: only 'a'..'z' move, by 32 code points. */
  function ToUpperChar(c: char): (r: char)
    ensures !IsLower(r)
    ensures IsLower(c) ==> r as int == c as int - 32
    ensures !IsLower(c) ==> r == c
  {
    if IsLower(c) then (c as int - 32) as char else c
  }

  /** Each character of `s` upper-cased.  This is also the raw helper
      `estr_toupper(source, dest)` declared in api/estr.h, which
      lib/estrbuffer.c uses for `%X`. */
  function ToUpperStr(s: string): (r: string)
    ensures |r| == |s| && forall i :: 0 <= i < |s| ==> r[i] == ToUpperChar(s[i])
  {
    seq(|s|, i requires 0 <= i < |s| => ToUpperChar(s[i]))
  }

  function ToLowerStr(s: string): (r: string)
    ensures |r| == |s| && forall i :: 0 <= i < |s| ==> r[i] == ToLowerChar(s[i])
  {
    seq(|s|, i requires 0 <= i < |s| => ToLowerChar(s[i]))
  }

  /** Case mapping keeps every NUL where it was, so it commutes with reading
      the C string out of a region. */
  lemma CaseMapKeepsCStr(s: string)
    ensures CStr(ToUpperStr(s)) == ToUpperStr(CStr(s))
    ensures CStr(ToLowerStr(s)) == ToLowerStr(CStr(s))
  {
    var k := NulIndex(s);
    NulIndexUnique(ToUpperStr(s), k);
    NulIndexUnique(ToLowerStr(s), k);
  }

  /** Upper-casing twice is upper-casing once, and it never leaves a lower-case letter. */
  lemma ToUpperIdempotent(s: string)
    ensures ToUpperStr(ToUpperStr(s)) == ToUpperStr(s)
    ensures forall i :: 0 <= i < |s| ==> !IsLower(ToUpperStr(s)[i])
  {
  }

  // ---------------------------------------------------------------------------
  // Radix conversion (estr_convert)

  /** The digit table "0123456789abcdef" of lib/estr.c:775. */
  const DIGITS: string := "0123456789abcdef"

  /** The value of one digit character; upper-case hex digits count too, as
      estr_hex2bin's table is upper-case. */
  function DigitValue(c: char): nat
  {
    if '0' <= c <= '9' then c as int - '0' as int
    else if 'a' <= c <= 'f' then c as int - 'a' as int + 10
    else if 'A' <= c <= 'F' then c as int - 'A' as int + 10
    else 0
  }

  /** The number a digit string denotes in `base`, most significant first. */
  function Value(s: string, base: nat): nat
  {
    if s == [] then 0 else Value(s[..|s| - 1], base) * base + DigitValue(s[|s| - 1])
  }

  function Pow(b: nat, k: nat): nat
  {
    if k == 0 then 1 else b * Pow(b, k - 1)
  }

  /** The table entry for digit value `k`, computed rather than looked up. */
  function DigitChar(k: nat): char
    requires k < 16
  {
    if k < 10 then ('0' as int + k) as char else ('a' as int + k - 10) as char
  }

  lemma DigitCharTable(k: nat)
    requires k < 16
    ensures DigitChar(k) == DIGITS[k]
    ensures DigitValue(DigitChar(k)) == k
  {
  }

  /** estr_convert(num, base): the base-`base` digits of `num`, produced least
      significant first into the scratch array and read back most significant first. */
  function Convert(num: nat, base: nat): (s: string)
    requires 2 <= base <= 16
    ensures |s| >= 1
    decreases num
  {
    if num < base then [DigitChar(num)]
    else Convert(num / base, base) + [DigitChar(num % base)]
  }

  /** The loop of estr_convert (lib/estr.c:769-779): a terminator in the last
      cell of a 33-character array, then digits written backwards, least
      significant first, until the quotient is 0.  The result is the index
      `ptr` into the array; the digits must fit the 32 cells before the
      terminator (ConvertFitsScratch says when they do). */
  method ConvertInto(num: nat, base: nat) returns (buf: array<char>, ptr: nat)
    requires 2 <= base <= 16 && |Convert(num, base)| <= 32
    ensures fresh(buf) && buf.Length == 33 && ptr < 33
    ensures buf[ptr..] == Convert(num, base) + [NUL]
  {
    buf := new char[33];
    ptr := 32;
    buf[ptr] := NUL;
    var n: nat := num;
    var first := true;
    while first || n != 0
      invariant ptr <= 32 && buf[32] == NUL
      invariant first ==> n == num && ptr == 32
      invariant first || n != 0 ==> Convert(num, base) == Convert(n, base) + buf[ptr..32]
      invariant !first && n == 0 ==> buf[ptr..32] == Convert(num, base)
      decreases n, first
    {
      ghost var q, r := ConvertStep(n, base);
      ghost var done := buf[ptr..32];
      assert |Convert(n, base)| + |done| <= 32;
      ptr := ptr - 1;
      buf[ptr] := DIGITS[n % base];
      DigitCharTable(r);
      assert buf[ptr..32] == [DigitChar(r)] + done;
      ConvertPush(num, n, base, done, q, r);
      n := n / base;
      first := false;
    }
    assert buf[ptr..] == buf[ptr..32] + [buf[32]];
  }

  /** One more digit written in front of those already produced. */
  lemma ConvertPush(num: nat, n: nat, base: nat, done: string, q: nat, r: nat)
    requires 2 <= base <= 16 && Convert(num, base) == Convert(n, base) + done
    requires r < base && n == q * base + r && (n >= base ==> q >= 1)
    requires n >= base ==> Convert(n, base) == Convert(q, base) + [DigitChar(r)]
    requires n < base ==> q == 0 && Convert(n, base) == [DigitChar(r)]
    ensures q != 0 ==> Convert(num, base) == Convert(q, base) + ([DigitChar(r)] + done)
    ensures q == 0 ==> Convert(num, base) == [DigitChar(r)] + done
  {
  }

  /** One step of the conversion loop, with the division named. */
  lemma ConvertStep(num: nat, base: nat) returns (q: nat, r: nat)
    requires 2 <= base <= 16
    ensures q == num / base && r == num % base && r < base && num == q * base + r
    ensures num >= base ==> q < num && q >= 1
    ensures num >= base ==> Convert(num, base) == Convert(q, base) + [DigitChar(r)]
    ensures num < base ==> q == 0 && r == num && Convert(num, base) == [DigitChar(r)]
  {
    q, r := num / base, num % base;
    if num < base {
      assert num == 0 * base + num;
    }
  }

  /** Every character is one of the first `base` entries of the digit table. */
  lemma {:induction false} ConvertDigits(num: nat, base: nat)
    requires 2 <= base <= 16
    ensures forall i :: 0 <= i < |Convert(num, base)| ==>
      Convert(num, base)[i] in DIGITS && DigitValue(Convert(num, base)[i]) < base
    decreases num
  {
    if num >= base {
      var q, r := ConvertStep(num, base);
      ConvertDigits(q, base);
      DigitCharTable(r);
    } else {
      DigitCharTable(num);
    }
  }

  /** The digits never include a terminator. */
  lemma ConvertNoNul(num: nat, base: nat)
    requires 2 <= base <= 16
    ensures NoNul(Convert(num, base))
  {
    ConvertDigits(num, base);
    forall i | 0 <= i < |Convert(num, base)|
      ensures Convert(num, base)[i] != NUL
    {
      assert Convert(num, base)[i] in DIGITS;
    }
  }

  /** Reading the digits back gives the number: `Convert` is a faithful radix rendering. */
  lemma {:induction false} ConvertValue(num: nat, base: nat)
    requires 2 <= base <= 16
    ensures Value(Convert(num, base), base) == num
    decreases num
  {
    var s := Convert(num, base);
    if num < base {
      DigitCharTable(num);
      assert s[..0] == [];
    } else {
      var q, r := ConvertStep(num, base);
      ConvertValue(q, base);
      DigitCharTable(r);
      assert s[..|s| - 1] == Convert(q, base);
    }
  }

  /** No leading zero: the first digit is '0' exactly when the number is 0. */
  lemma {:induction false} ConvertNoLeadingZero(num: nat, base: nat)
    requires 2 <= base <= 16
    ensures Convert(num, base)[0] == '0' <==> num == 0
    ensures num == 0 ==> Convert(num, base) == "0"
    decreases num
  {
    if num >= base {
      var q, r := ConvertStep(num, base);
      ConvertNoLeadingZero(q, base);
    }
  }

  /** A number below base^k has at most k digits. */
  lemma {:induction false} ConvertLength(num: nat, base: nat, k: nat)
    requires 2 <= base <= 16 && k >= 1 && num < Pow(base, k)
    ensures |Convert(num, base)| <= k
    decreases num
  {
    if num >= base {
      var q, r := ConvertStep(num, base);
      assert Pow(base, 1) == base;
      assert q < Pow(base, k - 1) by {
        if q >= Pow(base, k - 1) {
          MulMonotone(Pow(base, k - 1), q, base, base);
        }
      }
      ConvertLength(q, base, k - 1);
    }
  }

  lemma {:induction false} PowAdd(b: nat, m: nat, n: nat)
    ensures Pow(b, m + n) == Pow(b, m) * Pow(b, n)
    decreases m
  {
    if m > 0 {
      PowAdd(b, m - 1, n);
      var x, y := Pow(b, m - 1), Pow(b, n);
      assert Pow(b, m + n) == b * (x * y);
      MulAssoc(b, x, y);
    }
  }

  lemma MulAssoc(a: nat, b: nat, c: nat)
    ensures a * (b * c) == (a * b) * c
  {
  }

  lemma {:induction false} PowMonotone(a: nat, b: nat, k: nat)
    requires a <= b
    ensures Pow(a, k) <= Pow(b, k)
    decreases k
  {
    if k > 0 {
      PowMonotone(a, b, k - 1);
      MulMonotone(a, b, Pow(a, k - 1), Pow(b, k - 1));
    }
  }

  lemma MulMonotone(a: nat, b: nat, x: nat, y: nat)
    requires a <= b && x <= y
    ensures a * x <= b * y
  {
    assert a * x <= a * y by {
      assert a * y - a * x == a * (y - x);
    }
    assert a * y <= b * y by {
      assert b * y - a * y == (b - a) * y;
    }
  }

  /** The source's scratch array holds 32 digits: enough for any 64-bit value
      in base 4 and above (and so for every call vprintf makes, in bases 8,
      10 and 16). */
  lemma ConvertFitsScratch(num: nat, base: nat)
    requires 4 <= base <= 16 && num < 0x1_0000_0000_0000_0000
    ensures |Convert(num, base)| <= 32
  {
    assert Pow(4, 2) == 16;
    PowAdd(4, 2, 2);
    PowAdd(4, 4, 4);
    PowAdd(4, 8, 8);
    PowAdd(4, 16, 16);
    assert Pow(4, 32) == 0x1_0000_0000_0000_0000;
    PowMonotone(4, base, 32);
    ConvertLength(num, base, 32);
  }

  // ---------------------------------------------------------------------------
  // Hex to binary expansion (estr_hex2bin)

  /** The characters estr_hex2bin can look up in its table "0123456789ABCDEF". */
  predicate IsHexTableChar(c: char) { '0' <= c <= '9' || 'A' <= c <= 'F' }

  predicate AllHexTable(h: string) { forall i :: 0 <= i < |h| ==> IsHexTableChar(h[i]) }

  /** The four binary digits of a nibble, most significant first (the `quad` table). */
  function Quad(v: nat): (q: string)
    requires v < 16
    ensures |q| == 4 && Value(q, 2) == v
    ensures forall i :: 0 <= i < 4 ==> q[i] in "01"
  {
    var q := [Bit(v / 8), Bit(v / 4 % 2), Bit(v / 2 % 2), Bit(v % 2)];
    assert q[..3][..2][..1][..0] == [];
    assert Value(q[..1], 2) == v / 8;
    assert Value(q[..2], 2) == v / 4 by { assert q[..2][..1] == q[..1]; }
    assert Value(q[..3], 2) == v / 2 by { assert q[..3][..2] == q[..2]; }
    assert q[..4] == q;
    q
  }

  function Bit(b: nat): char
    requires b < 2
  {
    if b == 0 then '0' else '1'
  }

  /** The hex digits estr_hex2bin expands: nothing for NULL, and a leading
      "0x" skipped (lower-case x only, lib/estr.c:796). */
  function HexDigits(hexstr: Option<string>): string
  {
    match hexstr
    case None => []
    case Some(s) =>
      var h := CStr(s);
      if |h| >= 2 && h[0] == '0' && h[1] == 'x' then h[2..] else h
  }

  function ExpandQuads(h: string): string
    requires AllHexTable(h)
  {
    if h == [] then [] else ExpandQuads(h[..|h| - 1]) + Quad(DigitValue(h[|h| - 1]))
  }

  /** estr_hex2bin(hexstr).  The source looks each digit up with strchr in an
      upper-case table: a character outside it (a lower-case hex letter,
      say) indexes the quad table out of range, and more than 32 digits
      overrun the 132-byte scratch array; both are excluded here. */
  function Hex2Bin(hexstr: Option<string>): (r: string)
    requires AllHexTable(HexDigits(hexstr))
    requires |HexDigits(hexstr)| <= 32
    ensures |r| == 4 * |HexDigits(hexstr)| && |r| < 132
    ensures forall i :: 0 <= i < |r| ==> r[i] in "01"
    ensures Value(r, 2) == Value(HexDigits(hexstr), 16)
  {
    ExpandQuadsValue(HexDigits(hexstr));
    ExpandQuads(HexDigits(hexstr))
  }

  /** The estr_hex2bin loop itself: a zeroed 132-character scratch array into
      which the quad of each digit is copied, four characters further on at
      each step.  It leaves exactly Hex2Bin(hexstr) in front of the zeros. */
  method Hex2BinInto(hexstr: Option<string>) returns (str: array<char>)
    requires AllHexTable(HexDigits(hexstr))
    requires |HexDigits(hexstr)| <= 32
    ensures fresh(str) && str.Length == 132
    ensures str[..] == Hex2Bin(hexstr) + Zeros(132 - |Hex2Bin(hexstr)|)
    ensures CStr(str[..]) == Hex2Bin(hexstr)
  {
    str := new char[132](_ => NUL);
    ghost var digits := HexDigits(hexstr);
    if hexstr.Some? {
      var h := CStr(hexstr.value);
      var t := h;
      if |h| >= 2 && h[0] == '0' && h[1] == 'x' {
        t := h[2..];
      }
      assert t == digits;
      ExpandInto(str, t);
    } else {
      assert str[..] == ExpandQuads(digits) + Zeros(132);
    }
    Hex2BinRegion(hexstr, str[..]);
  }

  /** The zero-padded expansion is the result followed by zeros, and reads
      back as the result. */
  lemma Hex2BinRegion(hexstr: Option<string>, a: seq<char>)
    requires AllHexTable(HexDigits(hexstr)) && |HexDigits(hexstr)| <= 32
    requires a == ExpandQuads(HexDigits(hexstr)) + Zeros(132 - 4 * |HexDigits(hexstr)|)
    ensures a == Hex2Bin(hexstr) + Zeros(132 - |Hex2Bin(hexstr)|)
    ensures CStr(a) == Hex2Bin(hexstr)
  {
    HexBinTail(Hex2Bin(hexstr), 132 - |Hex2Bin(hexstr)|);
  }

  /** The while loop of estr_hex2bin over the digits `t`, into a zeroed array. */
  method ExpandInto(str: array<char>, t: string)
    requires str.Length == 132 && str[..] == Zeros(132)
    requires |t| <= 32 && AllHexTable(t)
    modifies str
    ensures str[..] == ExpandQuads(t) + Zeros(132 - 4 * |t|)
  {
    assert str[..] == ExpandQuads(t[..0]) + Zeros(132);
    var i, j := 0, 0;
    while j < |t|
      invariant j <= |t| && i == 4 * j
      invariant str[..] == ExpandQuads(t[..j]) + Zeros(132 - i)
    {
      WriteQuad(str, t, i, j);
      i, j := i + 4, j + 1;
    }
    assert t[..j] == t;
  }

  /** strcpy(str + i, quad[digit]): the quad of digit `j` and its NUL over
      the zeros at `i`. */
  method WriteQuad(str: array<char>, t: string, i: nat, j: nat)
    requires str.Length == 132 && j < |t| <= 32 && AllHexTable(t) && i == 4 * j
    requires str[..] == ExpandQuads(t[..j]) + Zeros(132 - i)
    modifies str
    ensures str[..] == ExpandQuads(t[..j + 1]) + Zeros(132 - (i + 4))
  {
    ghost var before := str[..];
    var q := Quad(DigitValue(t[j]));
    WriteCStr(str, i, q);
    ExpandStep(t, j, before, str[..]);
  }

  /** One step of the copy: strcpy of the next quad (and its NUL) over the
      zeros just past the expansion so far extends the expansion by one digit. */
  lemma ExpandStep(t: string, j: nat, before: seq<char>, after: seq<char>)
    requires j < |t| <= 32 && AllHexTable(t) && |before| == 132
    requires before == ExpandQuads(t[..j]) + Zeros(132 - 4 * j)
    requires after == before[..4 * j] + Quad(DigitValue(t[j])) + [NUL] + before[4 * j + 5..]
    ensures after == ExpandQuads(t[..j + 1]) + Zeros(132 - 4 * (j + 1))
  {
    ExpandQuadsValue(t[..j]);
    QuadStep(ExpandQuads(t[..j]), Quad(DigitValue(t[j])), 132 - 4 * j);
    ExpandQuadsSnoc(t, j);
  }

  lemma QuadStep(done: string, q: string, n: nat)
    requires |q| == 4 && n >= 5
    ensures (done + Zeros(n))[..|done|] + q + [NUL] + (done + Zeros(n))[|done| + 5..]
      == (done + q) + Zeros(n - 4)
  {
    var lhs := (done + Zeros(n))[..|done|] + q + [NUL] + (done + Zeros(n))[|done| + 5..];
    assert |lhs| == |done| + n;
    forall k | 0 <= k < |lhs|
      ensures lhs[k] == ((done + q) + Zeros(n - 4))[k]
    {
    }
  }

  lemma ExpandQuadsSnoc(h: string, j: nat)
    requires j < |h| && AllHexTable(h)
    ensures ExpandQuads(h[..j + 1]) == ExpandQuads(h[..j]) + Quad(DigitValue(h[j]))
  {
    assert h[..j + 1][..j] == h[..j];
  }

  /** A bit string followed by zeros reads back as that bit string. */
  lemma HexBinTail(r: string, n: nat)
    requires n >= 1 && forall i :: 0 <= i < |r| ==> r[i] in "01"
    ensures CStr(r + Zeros(n)) == r
  {
    assert r + Zeros(n) == r + [NUL] + Zeros(n - 1);
    CStrPrefixed(r, Zeros(n - 1));
  }

  /** Appending digits multiplies the value of the prefix by base^|b|. */
  lemma {:induction false} ValueAppend(a: string, b: string, base: nat)
    ensures Value(a + b, base) == Value(a, base) * Pow(base, |b|) + Value(b, base)
    decreases |b|
  {
    if b != [] {
      var b' := b[..|b| - 1];
      assert (a + b)[..|a + b| - 1] == a + b';
      assert (a + b)[|a + b| - 1] == b[|b| - 1];
      ValueAppend(a, b', base);
      var A, P, V, d := Value(a, base), Pow(base, |b'|), Value(b', base), DigitValue(b[|b| - 1]);
      assert Value(a + b, base) == (A * P + V) * base + d;
      assert Value(b, base) == V * base + d;
      assert Pow(base, |b|) == base * P;
      Regroup(A, P, V, base);
    } else {
      assert a + b == a;
    }
  }

  lemma Regroup(A: nat, P: nat, V: nat, base: nat)
    ensures (A * P + V) * base == A * (base * P) + V * base
  {
  }

  lemma {:induction false} ExpandQuadsValue(h: string)
    requires AllHexTable(h)
    ensures |ExpandQuads(h)| == 4 * |h|
    ensures forall i :: 0 <= i < |ExpandQuads(h)| ==> ExpandQuads(h)[i] in "01"
    ensures Value(ExpandQuads(h), 2) == Value(h, 16)
    decreases |h|
  {
    if h != [] {
      var h' := h[..|h| - 1];
      var v := DigitValue(h[|h| - 1]);
      ExpandQuadsValue(h');
      ValueAppend(ExpandQuads(h'), Quad(v), 2);
      assert Pow(2, 4) == 16;
    }
  }

  // ---------------------------------------------------------------------------
  // Search and counting

  predicate MatchAt(hay: string, needle: string, k: nat)
  {
    k + |needle| <= |hay| && hay[k..k + |needle|] == needle
  }

  /** strstr: the first position at or after `k` where `needle` occurs. */
  function IndexOfFrom(hay: string, needle: string, k: nat): (r: Option<nat>)
    requires k <= |hay|
    ensures r.Some? ==> k <= r.value && MatchAt(hay, needle, r.value)
    ensures r.Some? ==> forall j :: k <= j < r.value ==> !MatchAt(hay, needle, j)
    ensures r.None? ==> forall j :: k <= j <= |hay| ==> !MatchAt(hay, needle, j)
    decreases |hay| - k
  {
    if MatchAt(hay, needle, k) then Some(k)
    else if k == |hay| then None
    else IndexOfFrom(hay, needle, k + 1)
  }

  /** strstr(hay, needle) as an offset: the first occurrence, or None. */
  function IndexOf(hay: string, needle: string): (r: Option<nat>)
    ensures r.Some? ==> MatchAt(hay, needle, r.value) && forall j :: 0 <= j < r.value ==> !MatchAt(hay, needle, j)
    ensures r.None? <==> forall j :: 0 <= j <= |hay| ==> !MatchAt(hay, needle, j)
    ensures needle == [] ==> r == Some(0)
  {
    IndexOfFrom(hay, needle, 0)
  }

  /** The number of positions of `s` holding `c`. */
  function Occurrences(s: string, c: char): (n: nat)
    ensures n == multiset(s)[c]
  {
    if s == [] then 0
    else
      assert s == s[..|s| - 1] + [s[|s| - 1]];
      Occurrences(s[..|s| - 1], c) + (if s[|s| - 1] == c then 1 else 0)
  }

  // ---------------------------------------------------------------------------
  // Prefix and suffix tests

  /** `prefix` is a prefix of `s`, compared character by character as strncmp does. */
  function StartsWith(s: string, prefix: string): (r: bool)
    ensures r <==> |prefix| <= |s| && s[..|prefix|] == prefix
  {
    if prefix == [] then true
    else if s == [] || s[0] != prefix[0] then false
    else
      var r := StartsWith(s[1..], prefix[1..]);
      assert r <==> |prefix| <= |s| && s[..|prefix|] == prefix by {
        if |prefix| <= |s| {
          assert s[..|prefix|] == [s[0]] + s[1..][..|prefix| - 1];
          assert prefix == [prefix[0]] + prefix[1..];
        }
      }
      r
  }

  /** `suffix` is a suffix of `s`. */
  function EndsWith(s: string, suffix: string): (r: bool)
    ensures r <==> |suffix| <= |s| && s[|s| - |suffix|..] == suffix
  {
    if suffix == [] then true
    else if s == [] || s[|s| - 1] != suffix[|suffix| - 1] then false
    else
      var s', x' := s[..|s| - 1], suffix[..|suffix| - 1];
      var r := EndsWith(s', x');
      assert r <==> |suffix| <= |s| && s[|s| - |suffix|..] == suffix by {
        if |suffix| <= |s| {
          assert s[|s| - |suffix|..] == s'[|s'| - |x'|..] + [s[|s| - 1]];
          assert suffix == x' + [suffix[|suffix| - 1]];
        }
      }
      r
  }

  /** strncmp(a, b, n) == 0 on two regions: equal up to `n` characters or up
      to a NUL both share. */
  function StrNEq(a: seq<char>, b: seq<char>, n: nat): bool
    requires n <= |a| && n <= |b|
  {
    n == 0 || (a[0] == b[0] && (a[0] == NUL || StrNEq(a[1..], b[1..], n - 1)))
  }

  /** When one side has no NUL in its first `n` characters, strncmp is plain
      equality of those characters. */
  lemma {:induction false} StrNEqNoNul(a: seq<char>, b: seq<char>, n: nat)
    requires n <= |a| && n <= |b|
    requires NoNul(a[..n]) || NoNul(b[..n])
    ensures StrNEq(a, b, n) <==> a[..n] == b[..n]
  {
    if n > 0 {
      assert a[1..][..n - 1] == a[..n][1..];
      assert b[1..][..n - 1] == b[..n][1..];
      assert a[0] == a[..n][0] && b[0] == b[..n][0];
      StrNEqNoNul(a[1..], b[1..], n - 1);
      assert a[..n] == [a[0]] + a[1..][..n - 1];
      assert b[..n] == [b[0]] + b[1..][..n - 1];
    }
  }

  // ---------------------------------------------------------------------------
  // Integer test, scanning the content

  function AllDigits(s: string): (r: bool)
    ensures r <==> forall i :: 0 <= i < |s| ==> IsDigit(s[i])
  {
    s == [] || (IsDigit(s[0]) && AllDigits(s[1..]))
  }

  /** A valid int: an optional '-' followed by at least one decimal digit
      and nothing else. */
  function IsInt(s: string): (r: bool)
    ensures r <==> (s != [] && AllDigits(s)) || (|s| >= 2 && s[0] == '-' && AllDigits(s[1..]))
  {
    if s != [] && s[0] == '-' then |s| >= 2 && AllDigits(s[1..]) else s != [] && AllDigits(s)
  }

  lemma IsIntExamples()
    ensures IsInt("-123") && IsInt("0")
    ensures !IsInt("") && !IsInt("-") && !IsInt("12a") && !IsInt("1-2") && !IsInt("--1")
  {
    assert !IsDigit('a') && !IsDigit('-');
    assert "12a"[2] == 'a';
    assert "1-2"[1] == '-';
    assert "--1"[1..][0] == '-';
  }

  // ---------------------------------------------------------------------------
  // Raw substring (api/estr.h)

  /** estr_substring(str, begin, len) on a borrowed string: the `len`
      characters starting at `begin`, as the header documents it. */
  function RawSubstring(s: string, begin: nat, len: nat): (r: string)
    requires begin + len <= |s|
    ensures |r| == len && forall i :: 0 <= i < len ==> r[i] == s[begin + i]
  {
    s[begin..begin + len]
  }
}
